=== FILE: README.md ===
# Equipment-failure ticket bot — a Dafny model of its core

`bot.py` is a Telegram bot for a retail chain. Shop staff ("senders") report broken
equipment through a four-step form; the bot files the report as a ticket and posts
it to a management chat and to every technician. A technician takes the ticket with
an inline button ("Принять") and closes it with another ("Завершить"); the sender can
withdraw it ("Отменить заявку"). Two plain-text registries configure the bot: a store
directory (`number | address` per line) and a technician roster (one numeric user id
per line, optionally followed by `| comment`).

This project models the three pure cores of that program as total functions over
explicit state and proves what they guarantee:

- **Ticket lifecycle** (`lifecycle.dfy`, `tickets.dfy`): the `tickets` table as a
  `map<int, Ticket>`, the four statuses (Создана, Выполняется, Выполнена,
  Аннулирована пользователем), the field-subset `update_ticket`, id assignment
  (`MAX(ticket_id) + 1`, or 1001), the initial row, and the guard chains of the three
  buttons (`callback_take`, `callback_done`, `callback_user_cancel`), each a function
  from the store to an outcome and the new store. Sender profiles and technician
  display names are the two side tables.
- **Intake conversation** (`intake.dfy`): the `TicketForm` state machine
  (equipment → description → priority → photo) with cancel, back, normalisation of the
  equipment and priority answers, and the once-per-album warning kept in the shared
  `RECENT_MEDIA_GROUPS` set.
- **Registry parsing** (`registry.dfy`, on top of `strings.dfy`): the line rules of
  `load_store_addresses` and `load_tech_ids_from_file`, with Python's `str.strip()`,
  `split("|", 1)`, `isdigit()` and `int()` written out; plus `/addtech` and `/deltech`
  as roster insert and delete.
- **Rendering decisions** (`render.dfy`): the status line of `format_ticket_text`
  (with the executor link) and the rule for when a ticket shows its store's address.

In these places the model follows the code as written:

- A ticket in progress can be cancelled by its sender (bot.py:1025-1033). Only
  done or already-cancelled tickets refuse.
- "Done" refuses a fresh ticket only when `executor_id` is falsy (bot.py:1191). In
  every reachable store that is always the case (`Lifecycle.DoneNeedsTake`).
- A ticket cancelled before anyone took it has no executor. So an empty executor
  does not mean the ticket is fresh. The invariant proved is the one-directional
  `Tickets.TicketInvariant`.
- The back button does not clear the answer of the step it leaves, because
  `update_data` merges. The kept answers are simply overwritten later.
- At the equipment step the back button is not recognised. Its label becomes the
  free-text answer `Другое: ⬅ Назад` (`Intake.BackAtFirstStep`).
- Content without a handler in the current step produces no reply and no change
  (`Reply.Unhandled`). This covers stickers at every step and photos at the
  priority step.
- A button press is dispatched only when the presser has no conversation state in
  that chat. The three button handlers are registered without a `state` argument
  (bot.py:1011, 1079, 1177), and the dispatcher then admits them only in the empty
  state. A sender who presses "cancel" under an earlier ticket while filling in a new
  form is ignored (`Lifecycle.Press`, `Lifecycle.CancelDroppedDuringForm`; see
  "## Findings"). The run lemmas (`Lifecycle.Run` over `Lifecycle.Step`) describe
  presses that reach their handler, which is every press under the intended
  dispatch `Lifecycle.PressAnyState`; a dropped press changes nothing
  (`Lifecycle.PressPreservesWellFormed`).
- At the photo step the form is finished (bot.py:911) before the answers are read
  (bot.py:924-926). A missing answer would therefore end the form with no ticket.
  The model keeps that path (`Reply.MissingAnswer`) and proves it unreachable
  (`Intake.SubmissionIsComplete`).

## Model

| member | source | states |
|---|---|---|
| Strings.Strip | bot.py:65 | `line.strip()`: the result has no whitespace at either end and is no longer than the input |
| Strings.StripShape | bot.py:65 | stripping removes whitespace only: the input is the stripped text with whitespace before and after it |
| Strings.StripPadded | bot.py:65 | stripping a trimmed text surrounded by any whitespace gives that text back |
| Strings.StripIdempotent | bot.py:65-72 | a helper fact for reading the fields of a stripped line: stripping twice is stripping once |
| Strings.StripKeeps | bot.py:65 | stripping introduces no character that was not in the line |
| Strings.StripLower | bot.py:901 | `text.lower().strip()` equals `text.strip().lower()` |
| Strings.TrimStartIsSuffix | bot.py:65 | the left strip drops a prefix: its result is a suffix of the input |
| Strings.TrimEndIsPrefix | bot.py:65 | the right strip drops a suffix: its result is a prefix of the input |
| Strings.IndexOf | bot.py:68 | `"|" in line` exactly when a first position exists; that position holds `|` and no earlier one does |
| Strings.SplitFirst | bot.py:70 | `split("|", 1)` of a line containing `|`: the two parts rejoin to the line and the left part has no `|` |
| Strings.SplitFirstJoin | bot.py:70 | splitting `a + "|" + b` with no `|` in `a` gives back exactly `a` and `b`, whatever `b` contains |
| Strings.NatToString | bot.py:532 | `str(n)`, the inverse `int()` is checked against: the decimal form of a number is non-empty, all digits, and has no leading zero unless it is 0 |
| Strings.DecimalRoundTrip | bot.py:103-105 | `int(str(n)) == n`, so every id written as digits is read back as that id |
| Strings.IntToString | bot.py:532 | the f-string `{executor_id}`: non-empty, the decimal form of a non-negative id, and a minus sign before the digits of a negative one |
| Strings.DecimalValue | bot.py:103-105 | `int()` of a string that `isdigit()` accepts (`Strings.IsDecimal`: non-empty, ASCII digits only) is 0 exactly when every digit is 0 |
| Strings.CanonicalDecimalRoundTrip | bot.py:103-105 | `str(int(s)) == s` for a digit string without a leading zero, so `int()` loses nothing on such input |
| Strings.DecimalIsTrimmed | bot.py:97-103 | a digit string has no whitespace, no `|` and no `#`, so stripping and splitting leave it intact |
| Strings.Lower | bot.py:850 | `str.lower()` keeps the length of the text |
| Strings.LowerLatinCapitals | bot.py:850 | every Latin capital becomes its own small letter |
| Strings.LowerRussianCapitals | bot.py:850 | every Russian capital, Ё included, becomes its own small letter |
| Strings.LowerKeepsLatin | bot.py:850 | small Latin letters are left as they are |
| Strings.LowerKeepsRussian | bot.py:850 | small Russian letters are left as they are |
| Strings.LowerKeeps | bot.py:850 | lower-casing changes only upper-case ASCII and Cyrillic letters |
| Strings.LowerIdempotent | bot.py:850 | lower-casing twice is lower-casing once |
| Strings.LowerCharSpace | bot.py:901 | lower-casing maps each whitespace character to itself and never produces whitespace from anything else |
| Registry.ParseStoreLine | bot.py:65-75 | an accepted directory line yields a non-empty stripped id without `|` or leading `#` and a non-empty stripped address; blank and `#` lines yield nothing |
| Registry.StoreFields | bot.py:68-74 | on a stripped line, an accepted entry is the stripped text either side of the first `|` |
| Registry.StoreLineRead | bot.py:65-75 | any line `id | address`, with any whitespace around both fields, is read as exactly that id and address |
| Registry.StoreLineShape | bot.py:65-75 | conversely, every accepted line is its id and address joined by `|` and padded with whitespace only |
| Registry.StoreLineNeedsBar | bot.py:68-69 | a line without `|` defines no store |
| Registry.StoreLineNeedsId | bot.py:70-74 | a line whose text before `|` is blank defines no store, whatever follows |
| Registry.StoreLineNeedsAddress | bot.py:70-74 | a line whose text after the first `|` is blank defines no store |
| Registry.LastWins | bot.py:64-75 | folding entries in file order keeps every defined key, with the value of its last definition and no other key |
| Registry.LoadStoreAddresses | bot.py:59-75 | the directory holds exactly the stores some line defines, each with the address of its last definition, and every address is non-empty |
| Registry.ParseTechLine | bot.py:93-105 | an accepted roster line yields a non-negative id; blank and `#` lines yield nothing; `Registry.TechLineShape` and `Registry.TechLineNeedsDigits` pin down which lines are accepted |
| Registry.TechField | bot.py:97-105 | on a stripped line, an accepted entry is never a `#` line and is non-negative; a line with no `|` is accepted exactly when it is all digits, as the number they spell |
| Registry.TechLineShape | bot.py:93-105 | conversely, every line that yields an id is that id's digits padded with whitespace, optionally followed by `|` and anything |
| Registry.TechLineNeedsDigits | bot.py:97-105 | a line whose text left of the first `|` is not all digits yields no id, with or without a comment |
| Registry.TechLineRead | bot.py:93-105 | a line holding an id's decimal form, with whitespace around it, is read as that id |
| Registry.CommentedTechLineRead | bot.py:96-105 | the documented `id | comment` form is read as that id, whatever the comment holds |
| Registry.CollectIds | bot.py:92-105 | the ids collected from parsed lines are exactly those some line yields |
| Registry.LoadTechIds | bot.py:86-105 | the roster is exactly the set of ids some line lists, all non-negative |
| Registry.AddTech | bot.py:1525-1529 | `/addtech` puts the id on the roster and sets its display name only when one is given, leaving other names alone |
| Registry.DelTech | bot.py:1565-1571 | `/deltech` is refused exactly when the id is not listed; otherwise the roster loses that id and nothing else |
| Registry.AddThenDelete | bot.py:1525-1571 | removing an id just added leaves the roster without it |
| Registry.DeleteThenAdd | bot.py:1525-1571 | adding back an id just removed restores the roster |
| Tickets.StatusLabel | bot.py:1093-1102 | the four texts the `status` column holds |
| Tickets.StatusLabelInjective | bot.py:1093-1102 | the four labels are distinct, so the handlers' comparisons of the status column against them are comparisons of statuses |
| Tickets.HasExecutor | bot.py:1191 | `executor_id` read as a truth value: NULL and 0 both mean no executor; used by the guards at bot.py:1191 and 1208 |
| Tickets.Apply | bot.py:264-280 | an updated row takes the given value in each patched column and keeps every other column |
| Tickets.UpdateTicket | bot.py:264-280 | an update touches only the named ticket, adds and removes no ticket, and no columns means no change |
| Tickets.UpdateIdempotent | bot.py:264-280 | repeating the same update changes nothing further |
| Tickets.UpdatesCommute | bot.py:264-280 | updates of disjoint columns may be applied in either order |
| Tickets.NextTicketId | bot.py:178-186 | the new id is 1001 for an empty table and otherwise the largest id plus one (1001 when that largest is 0); it is unused and above every id in use |
| Tickets.NewTicket | bot.py:189-223 | a new row is fresh (Создана), with no executor id and an empty executor name |
| Tickets.SetSenderProfile | bot.py:353-369 | the upsert sets name and store for that sender only and keeps the first registration time |
| Tickets.SetSenderName | bot.py:372-378 | a rename keeps the sender's store, which is empty for a sender without a profile |
| Tickets.RenameKeepsRegistration | bot.py:372-378 | renaming a registered sender to a non-empty name keeps them registered, with the same store and registration time |
| Tickets.SetTechnicianName | bot.py:285-298 | the upsert sets one technician's display name and keeps all others |
| Tickets.TechnicianName | bot.py:301-315 | a stored non-empty display name wins over the name the platform shows |
| Tickets.NameSetIsUsed | bot.py:285-315 | after a non-empty name is set, it is the name the technician's tickets show |
| Intake.NormaliseEquipment | bot.py:771-774 | the stored equipment is a button label or the free text behind `Другое: ` |
| Intake.OnEquipment | bot.py:750-777 | the equipment step stays put exactly on a captionless photo or other content; otherwise it cancels or moves to the description step, storing a normalised answer from which the stripped text or caption is recovered and keeping the other answers |
| Intake.ChooseEquipment | bot.py:765-777 | a text answer ends the form exactly when it is the cancel button; any other answer is stored normalised and recoverable, and the form asks for the description |
| Intake.EquipmentRoundTrip | bot.py:771-776 | the text the sender entered can be read back from the stored equipment value |
| Intake.EquipmentInjective | bot.py:771-776 | two different entries never become the same stored equipment |
| Intake.OnDescription | bot.py:791-823 | the description step stays put exactly on a captionless photo or other content; a forward move stores the stripped text or caption as the description and changes no other answer; no other move changes any answer |
| Intake.Describe | bot.py:805-823 | a text answer ends the form exactly on cancel, returns to the equipment step with the answers kept exactly on back, and otherwise stores the text and asks for the priority |
| Intake.OnPriority | bot.py:831-854 | the priority step ignores everything but text; cancel ends the form, back returns to the description step keeping the answers, and any other text stores a valid priority, высокая exactly when the lower-cased text is, changing no other answer |
| Intake.NormalisePriority | bot.py:850-853 | the stored priority is обычная or высокая; it is высокая exactly when the lower-cased text is |
| Intake.LabelsAreLowerCase | bot.py:850-901 | the priority buttons are recognised as sent, and the typed refusal `нет` is already lower case |
| Intake.PriorityIgnoresCase | bot.py:850-853 | the stored priority does not depend on letter case |
| Intake.Cancelled | bot.py:590-594 | `cancel_creation`: the form ends with no ticket, the reply says so, and the album set is untouched |
| Intake.Submit | bot.py:895-926 | the form ends in every case; a ticket is submitted exactly when all three answers are present |
| Tickets.IsRegistered | bot.py:732 | a sender counts as registered when a profile exists with a non-empty name and store (also bot.py:621) |
| Intake.StartIntake | bot.py:722-740 | the form starts, at the equipment step with no answers, exactly for a non-staff sender with name and store registered |
| Intake.Receive | bot.py:720-909 | one message: outside a form only the "new ticket" button does anything, and it opens the form at the equipment step with empty answers exactly for a registered non-staff sender; the album set only grows, and grows only with a warning at the photo step |
| Intake.CapitalsAreRecognised | bot.py:850-901 | "ВЫСОКАЯ" and "Высокая" are read as the high priority, "НЕТ" and "Нет" as refusing a photo |
| Intake.OnPhoto | bot.py:865-909 | the photo step never forgets an album id and adds only the id of an album message; content other than text or a photo gets no reply and changes nothing |
| Intake.Previous | bot.py:811-881 | the back button's target is exactly one step earlier |
| Intake.CancelAtAnyStep | bot.py:767-872 | the cancel button ends the form at every step with no ticket and no change to the album set |
| Intake.BackOneStep | bot.py:811-882 | the back button moves exactly one step back and keeps every answer |
| Intake.BackAtFirstStep | bot.py:765-777 | at the equipment step the back label is stored as free-text equipment |
| Intake.CaptionlessPhotoAsksAgain | bot.py:753-763 | a photo without a caption at the equipment or description step changes nothing and asks for text |
| Intake.EquipmentAnswer | bot.py:765-777 | any equipment answer but cancel advances to the description step, stored verbatim if it is a button label and prefixed otherwise |
| Intake.PriorityAnswer | bot.py:833-854 | any priority answer but the two buttons advances to the photo step with a valid priority |
| Intake.AlbumNeverSubmits | bot.py:885-893 | an album message never submits or moves the form; it is answered exactly when its id is new, and the id is remembered |
| Intake.AlbumWarnedOnce | bot.py:885-893 | a second message of the same album is ignored silently |
| Intake.PhotoSubmits | bot.py:897-926 | a single photo at the last step submits the answers with that photo and ends the form |
| Intake.NoPhotoSubmits | bot.py:900-926 | "нет" in any letter case, or the no-photo button, submits without a photo and ends the form |
| Intake.OtherTextAsksForPhoto | bot.py:904-909 | any other text at the last step asks again and keeps the form at the photo step |
| Intake.MovesOneStep | bot.py:419-423 | a message moves the form by at most one step, and the answers change only when it moves forward |
| Intake.ReceivePreservesWellFormed | bot.py:750-909 | every message keeps the answers that the cursor position needs present and normalised |
| Intake.SubmissionIsComplete | bot.py:911-926 | from a well-formed form the missing-answer path is never taken, and a submission carries normalised answers |
| Intake.ConversationInvariant | bot.py:51 | over any sequence of messages the form stays well formed and the album set only grows |
| Lifecycle.ShownName | bot.py:1106 | a refusal always shows a name: the executor's, or "другой техник" when it is empty |
| Lifecycle.Take | bot.py:1080-1120 | once the handler runs (see `Lifecycle.Press`), a press succeeds exactly for a listed technician on an existing fresh ticket, setting status, executor id and name; every other press changes nothing |
| Lifecycle.Finish | bot.py:1178-1223 | once the handler runs, a press succeeds exactly for a listed technician on a ticket in progress, or fresh with a truthy executor, whose truthy executor is the presser; it sets Выполнена and the presser as executor |
| Lifecycle.Cancel | bot.py:1012-1033 | once the handler runs, a press succeeds exactly for the sender of an existing ticket that is neither done nor cancelled; only the status changes |
| Lifecycle.Step | bot.py:1011-1223 | a dispatched press is handled by its own button: a take claims exactly a fresh ticket for a listed technician, a done closes exactly a ticket the presser may close, a cancel cancels exactly the sender's own live ticket, and each success leaves the ticket in the matching status |
| Lifecycle.Press | bot.py:1011 | as registered (bot.py:1011, 1079, 1177, no `state` argument), a press reaches its handler only when the presser has no form in progress; otherwise it is dropped and changes nothing |
| Lifecycle.PressAnyState | bot.py:599 | the dispatch registered with `state="*"` (as `/start` is): a press always reaches its handler, so the sender's cancel of an open ticket and a technician's take of a fresh one succeed during a form |
| Lifecycle.CancelDroppedDuringForm | bot.py:1011-1033 | for every open ticket, its sender's cancel pressed while filling in a new form is dropped as written and would cancel the ticket under `state="*"` |
| Lifecycle.PressPreservesWellFormed | bot.py:1011-1033 | dropped or dispatched, a press keeps the row invariant |
| Lifecycle.StepIsLocal | bot.py:264-280 | a press touches only the ticket it names, adds or removes none, and rewrites only status and executor columns |
| Lifecycle.TerminalIsAbsorbing | bot.py:1025-1031 | no press changes a done or cancelled ticket, and every press on one is refused |
| Lifecycle.TerminalStaysTerminal | bot.py:1093-1099 | a done or cancelled ticket stays exactly as it is over any sequence of presses |
| Lifecycle.StepPreservesWellFormed | bot.py:1115-1120 | every press keeps fresh tickets without executor and taken or done tickets with one |
| Lifecycle.RunPreservesWellFormed | bot.py:1218-1223 | so does any sequence of presses |
| Lifecycle.StepMovesForward | bot.py:1102-1120 | a press never moves a ticket back to an earlier status |
| Lifecycle.RunMovesForward | bot.py:1199-1205 | over any sequence of presses a ticket only moves forward and keeps all columns but status and executor |
| Lifecycle.DoneNeedsTake | bot.py:1191-1196 | in a well-formed store, closing a fresh ticket is refused as not yet taken |
| Lifecycle.ExecutorCanFinish | bot.py:1207-1223 | the technician who took a ticket can close it |
| Lifecycle.OnlyExecutorFinishes | bot.py:1208-1214 | anyone else's press on a ticket in progress changes nothing and is refused with the executor's name |
| Lifecycle.OnlySenderCancels | bot.py:1021-1023 | only the sender can cancel, whatever the status |
| Lifecycle.CancelKeepsExecutor | bot.py:1033 | cancelling keeps the executor id and name |
| Lifecycle.SecondTakeIsRefused | bot.py:1102-1110 | of two technicians taking a ticket one after the other, the second is refused with the first one's name |
| Lifecycle.TakeIsIdempotent | bot.py:1102-1104 | the executor taking the ticket again is acknowledged and changes nothing |
| Lifecycle.RemovedTechnicianIsRefused | bot.py:1571 | after `/deltech` the user can neither take nor close tickets |
| Lifecycle.AddedTechnicianMayTake | bot.py:1525 | after `/addtech` the user can take a fresh ticket |
| Lifecycle.SenderFields | bot.py:917-922 | a ticket is filed under the profile's store and name, with placeholders for empty ones, or under "не указан" and the platform name without a profile |
| Lifecycle.CreateTicket | bot.py:924-991 | filing adds exactly one fresh ticket under an unused id above all others, with the answers and sender fields, and keeps every other ticket |
| Render.UserLink | bot.py:532 | the executor link ends with the name shown and the closing tag |
| Render.UserLinkInjective | bot.py:532 | different users or different names never give the same link, so the link identifies the executor |
| Render.StatusText | bot.py:527-546 | the status line starts with the status label and is the bare label exactly when the ticket is fresh, cancelled or has no executor name |
| Render.ReadStatus | bot.py:527-546 | a status read from the front of a line is one whose label the line starts with |
| Render.LabelsArePrefixFree | bot.py:527-546 | no status label begins another, so the front of a line names one status |
| Render.StatusTextReadBack | bot.py:527-546 | the status is recovered from the status line, whatever executor follows |
| Render.StatusTextNamesExecutor | bot.py:529-542 | with a truthy executor id, the line links the executor's name to that id |
| Render.StatusTextPlainName | bot.py:529-542 | with a named executor but a falsy id, the line is the label followed by the plain name |
| Render.SenderLabel | bot.py:548 | the ticket always shows a sender name: theirs, or "Отправитель" |
| Render.AddressFor | bot.py:551-554 | an address is shown exactly when the store is non-empty and its stripped number is listed with a non-empty address |
| Render.AddressOfListedStore | bot.py:552-554 | a listed store number, typed with any surrounding whitespace, shows the address the directory gives |
| Render.NoAddressForUnlisted | bot.py:552-554 | an unlisted store number shows no address |

## Left out

- Telegram transport is left out: sending and editing messages, `call.answer`, keyboards and logging. Replies are abstract tags (`Intake.Reply`, `Lifecycle.Outcome`). Only some of these calls are guarded. The per-technician copies of a new ticket (bot.py:962-978) and the edits of the admin and sender messages after a button press (bot.py:1052-1070, 1140-1171, 1242-1260) are inside `try` blocks whose failures are logged. `call.answer`, `call.message.reply`, `call.message.edit_reply_markup()` (bot.py:1074), `message.answer` and the post to the admin chat (bot.py:944-956) are not, so a failure there ends the handler with an exception. In the three button handlers every such call comes either on a refusal path, which writes nothing, or after `update_ticket`, so the store a step produces is the same whether the call fails or not.
- Lifecycle.CreateTicket: assumes the post to the admin chat succeeds. In `process_photo` that post (bot.py:944-956) runs after `state.finish()` (bot.py:911) and before `create_ticket_row` (bot.py:981), outside any `try`. If it raises, the program files no ticket, sends nothing to the technicians, and the form's answers are lost with the finished state. The model always files the ticket, with the message id of the post as a parameter.
- SQLite and SQL plumbing are replaced by an in-memory map. A NULL text column is the empty string.
- Lifecycle.Press: the presser's conversation state is the ticket form only. A press made during registration (the `UserProfile` states) is dropped by the program too, but the registration flow is not part of this model.
- Concurrency is left out. The button handlers read and then write with no atomic guard, so presses are modelled as sequential steps only. `Lifecycle.SecondTakeIsRefused` is about two presses one after the other, not about a race.
- Clocks are left out. `datetime.now()` timestamps are parameters (`created`, `now`).
- Callback data parsing (`int(call.data.split("_")[1])`) is left out. The ticket id is a parameter.
- The registration flow (`cmd_start`, `process_name`, `process_store_registration`) is left out, as are `/start` during a form and the other admin commands (`/admin`, `/list_*`, `/setusername`, `/settechname`, `/reloadtechs`, broadcast and wipe). Only their effect on the side tables is modelled (`Tickets.SetSenderProfile`, `Tickets.SetSenderName`, `Tickets.SetTechnicianName`).
- Argument parsing of `/addtech` and `/deltech` is left out. This covers reply-to-message targets, `split(maxsplit=1)`, and the platform-name fallback for the display name. `Registry.AddTech` and `Registry.DelTech` take the resolved id and name.
- `save_tech_ids_to_file` is left out: it is file output only.
- File I/O is left out. The loaders take the file's lines. A missing file behaves like an empty one.
- Platform user names (`full_name`, `username`) are a given string `platformName`. `get_technician_name`'s own fallback is left to the caller.
- The rest of `format_ticket_text` is left out: the header lines, `quote_plus` and the map links. Only the status-line and address decisions are modelled.
- Registry.ParseTechLine: `isdigit()` and `int()` are modelled for the ASCII digits only. Python's `isdigit()` also accepts other Unicode digits, and for some of them (superscripts, for instance) `int()` raises instead of returning.
- Strings.Lower: `str.lower()` is modelled for ASCII and Cyrillic letters, which cover every label the bot compares against. Other scripts are left unchanged.
- An executor id of 0: a ticket in progress whose executor id is 0 counts as having no executor (Python truthiness), so any technician may close it. Telegram user ids are positive, so this is kept as written and not treated as a defect.
- Telegram's rules on which messages carry a media group are not modelled. An album message is any photo with a non-empty album id.

## Findings

| source | as written | input that shows it | evidently intended | confidence | as-written member | corrected member |
|---|---|---|---|---|---|---|
| bot.py:1011 | the sender's cancel button is registered without `state`, so the dispatcher ignores it while the sender has a form in progress | a sender files #1001, presses "📝 Новая заявка" (form at the equipment step), then presses "Отменить заявку" under #1001: no handler runs, no answer is sent, and #1001 stays Создана | the cancel button works whatever the sender is doing, as `/start` does with `state="*"` | medium; not executed | Lifecycle.CancelDroppedDuringForm | Lifecycle.PressAnyState |

=== FILE: intake.dfy ===
/**
 * The ticket intake conversation (`TicketForm`): a sender answers four
 * questions in turn (equipment, description, priority, photo), may step back
 * or cancel at any point, and the last answer submits the ticket.
 *
 * The conversation state of one sender is a `Session`: either no form is in
 * progress, or a step cursor with the answers collected so far. The set of
 * album ids already warned about is shared by all senders and threads through
 * every turn.
 */
module Intake {
  import opened Wrappers
  import opened Strings
  import Tickets

  const CancelText := "❌ Отмена"
  const BackText := "⬅ Назад"
  const NoPhotoText := "Продолжить без фото"
  const NewTicketText := "📝 Новая заявка"
  /** The typed refusal accepted at the photo step, compared after lower-casing. */
  const NoText := "нет"

  const EquipmentChoices: seq<string> := ["Весы", "Видеонаблюдение", "Интернет", "Кассовое оборудование", "Другое"]
  /** Free-text equipment is stored behind this prefix. */
  const OtherPrefix := "Другое: "

  const NormalPriority := "обычная"
  const HighPriority := "высокая"

  /** The four states of `TicketForm`, in the order `TicketForm.next()` walks them. */
  datatype Step = EquipmentStep | DescriptionStep | PriorityStep | PhotoStep

  function Rank(step: Step): nat
  {
    match step
    case EquipmentStep => 0
    case DescriptionStep => 1
    case PriorityStep => 2
    case PhotoStep => 3
  }

  /** The FSM data: each answer is absent until its step stores it. */
  datatype Draft = Draft(equipment: Option<string>, description: Option<string>, priority: Option<string>)

  const EmptyDraft := Draft(None, None, None)

  datatype Session = Idle | Filling(step: Step, draft: Draft)

  /** What a sender can send: text, one photo (with optional caption and album id), or anything else. */
  datatype Message =
    | TextMsg(text: string)
    | PhotoMsg(caption: Option<string>, fileId: string, mediaGroup: Option<string>)
    | OtherMsg

  /** The answers a finished form hands over to ticket creation. */
  datatype Submission = Submission(equipment: string, description: string, priority: string, photo: Option<string>)

  /** What the bot answers, as a tag; `Unhandled` means no handler matches and nothing happens. */
  datatype Reply =
    | Unhandled
    | StaffOnly
    | NotRegistered
    | CreationCancelled
    | Ask(step: Step)
    | ReturnedTo(step: Step)
    | NeedText(step: Step)
    | AlbumWarning
    | AlbumIgnored
    | NeedPhoto
    | Submitted(submission: Submission)
    | MissingAnswer

  /** The result of one message: the reply, the sender's new session, the album ids seen so far. */
  datatype Turn = Turn(reply: Reply, session: Session, albums: set<string>)

  /** Python truthiness of an optional string: present and non-empty. */
  predicate Truthy(o: Option<string>)
  {
    o.Some? && o.value != ""
  }

  /** The forms an equipment answer can take: one of the buttons, or free text behind the prefix. */
  predicate IsEquipmentValue(e: string)
  {
    e in EquipmentChoices || (|OtherPrefix| <= |e| && e[..|OtherPrefix|] == OtherPrefix)
  }

  predicate IsPriority(p: string)
  {
    p == NormalPriority || p == HighPriority
  }

  /** A button label is kept as is; any other text is stored as `Другое: <text>`. */
  function NormaliseEquipment(text: string): (r: string)
    ensures IsEquipmentValue(r)
  {
    if text in EquipmentChoices then text else OtherPrefix + text
  }

  /** The text the sender entered, read back from a stored equipment value. */
  function EnteredText(e: string): string
    requires IsEquipmentValue(e)
  {
    if e in EquipmentChoices then e else e[|OtherPrefix|..]
  }

  /** No button label begins with the free-text prefix. */
  lemma PrefixedIsNoChoice(t: string)
    ensures OtherPrefix + t !in EquipmentChoices
  {
    var e := OtherPrefix + t;
    assert e[0] == 'Д' && |e| >= 8;
    assert e[6] == ':';
  }

  /** Normalisation loses nothing: the entered text is recovered from the stored value. */
  lemma EquipmentRoundTrip(t: string)
    ensures EnteredText(NormaliseEquipment(t)) == t
  {
    if t !in EquipmentChoices {
      PrefixedIsNoChoice(t);
      assert (OtherPrefix + t)[|OtherPrefix|..] == t;
    }
  }

  /** Two different entries never end up as the same stored value. */
  lemma EquipmentInjective(t: string, u: string)
    requires NormaliseEquipment(t) == NormaliseEquipment(u)
    ensures t == u
  {
    EquipmentRoundTrip(t);
    EquipmentRoundTrip(u);
  }

  /** Lower-case the stripped text; anything but the two levels becomes the normal one. */
  function NormalisePriority(raw: string): (r: string)
    ensures IsPriority(r)
    ensures r == HighPriority <==> Lower(raw) == HighPriority
    ensures Lower(raw) == NormalPriority ==> r == NormalPriority
  {
    var text := Lower(raw);
    if text == NormalPriority || text == HighPriority then text else NormalPriority
  }

  /** The two priority buttons and the typed refusal are already lower case, so each is recognised as sent. */
  lemma LabelsAreLowerCase()
    ensures Lower(NoText) == NoText
    ensures NormalisePriority(NormalPriority) == NormalPriority
    ensures NormalisePriority(HighPriority) == HighPriority
  {
  }

  /** The answers the sender may type in capitals are recognised: "ВЫСОКАЯ" and "Высокая" are the
      high level, and "НЕТ" or "Нет" is the refusal of a photo. */
  lemma CapitalsAreRecognised()
    ensures Lower("ВЫСОКАЯ") == HighPriority && Lower("Высокая") == HighPriority
    ensures NormalisePriority("ВЫСОКАЯ") == HighPriority
    ensures Lower("НЕТ") == NoText && Lower("Нет") == NoText
  {
  }

  /** The priority answer does not depend on letter case. */
  lemma PriorityIgnoresCase(raw: string)
    ensures NormalisePriority(Lower(raw)) == NormalisePriority(raw)
  {
    LowerIdempotent(raw);
  }

  /** Every answer collected so far, and the ones the cursor position needs, are in place and normalised. */
  predicate WellFormedDraft(step: Step, d: Draft)
  {
    && (Rank(step) >= 1 ==> d.equipment.Some?)
    && (Rank(step) >= 2 ==> d.description.Some?)
    && (Rank(step) >= 3 ==> d.priority.Some?)
    && (d.equipment.Some? ==> IsEquipmentValue(d.equipment.value))
    && (d.priority.Some? ==> IsPriority(d.priority.value))
  }

  predicate WellFormedSession(s: Session)
  {
    s.Filling? ==> WellFormedDraft(s.step, s.draft)
  }

  function Cancelled(albums: set<string>): (r: Turn)
    ensures r.session == Idle && r.albums == albums && r.reply == CreationCancelled
  {
    Turn(CreationCancelled, Idle, albums)
  }

  /** The Equipment step: a captionless photo is refused, otherwise the stripped text or caption is the answer. */
  function OnEquipment(m: Message, d: Draft, albums: set<string>): (r: Turn)
    ensures r.albums == albums
    ensures r.session == Filling(EquipmentStep, d) <==> m.OtherMsg? || (m.PhotoMsg? && !Truthy(m.caption))
    ensures r.session.Filling? ==> r.session.step == EquipmentStep || r.session.step == DescriptionStep
    ensures r.session.Filling? && r.session.step == DescriptionStep ==>
      && r.session.draft.description == d.description && r.session.draft.priority == d.priority
      && r.session.draft.equipment.Some? && IsEquipmentValue(r.session.draft.equipment.value)
    ensures m.TextMsg? && r.session.Filling? && r.session.step == DescriptionStep ==>
      EnteredText(r.session.draft.equipment.value) == Strip(m.text)
    ensures m.PhotoMsg? && Truthy(m.caption) && r.session.Filling? && r.session.step == DescriptionStep ==>
      EnteredText(r.session.draft.equipment.value) == Strip(m.caption.value)
  {
    match m
    case OtherMsg => Turn(Unhandled, Filling(EquipmentStep, d), albums)
    case PhotoMsg(caption, _, _) =>
      if !Truthy(caption) then Turn(NeedText(EquipmentStep), Filling(EquipmentStep, d), albums)
      else ChooseEquipment(Strip(caption.value), d, albums)
    case TextMsg(t) => ChooseEquipment(Strip(t), d, albums)
  }

  /** The answer to the Equipment step, once it is text: cancel, or store the normalised answer and move on. */
  function ChooseEquipment(text: string, d: Draft, albums: set<string>): (r: Turn)
    ensures r.albums == albums
    ensures r.session == Idle <==> text == CancelText
    ensures r.session == Idle ==> r.reply == CreationCancelled
    ensures text != CancelText ==>
      && r.reply == Ask(DescriptionStep) && r.session.Filling? && r.session.step == DescriptionStep
      && r.session.draft.description == d.description && r.session.draft.priority == d.priority
      && r.session.draft.equipment.Some? && IsEquipmentValue(r.session.draft.equipment.value)
      && EnteredText(r.session.draft.equipment.value) == text
  {
    if text == CancelText then Cancelled(albums)
    else
      EquipmentRoundTrip(text);
      Turn(Ask(DescriptionStep), Filling(DescriptionStep, d.(equipment := Some(NormaliseEquipment(text)))), albums)
  }

  /** The Description step: as Equipment, and the back button returns to Equipment. */
  function OnDescription(m: Message, d: Draft, albums: set<string>): (r: Turn)
    ensures r.albums == albums
    ensures r.session == Filling(DescriptionStep, d) <==> m.OtherMsg? || (m.PhotoMsg? && !Truthy(m.caption))
    ensures r.session.Filling? ==> r.session.step != PriorityStep ==> r.session.draft == d
    ensures r.session.Filling? ==> r.session.step != PhotoStep
    ensures m.TextMsg? && r.session.Filling? && r.session.step == PriorityStep ==>
      r.session.draft == d.(description := Some(Strip(m.text)))
    ensures m.PhotoMsg? && Truthy(m.caption) && r.session.Filling? && r.session.step == PriorityStep ==>
      r.session.draft == d.(description := Some(Strip(m.caption.value)))
  {
    match m
    case OtherMsg => Turn(Unhandled, Filling(DescriptionStep, d), albums)
    case PhotoMsg(caption, _, _) =>
      if !Truthy(caption) then Turn(NeedText(DescriptionStep), Filling(DescriptionStep, d), albums)
      else Describe(Strip(caption.value), d, albums)
    case TextMsg(t) => Describe(Strip(t), d, albums)
  }

  /** The answer to the Description step, once it is text: cancel, back, or store it and move on. */
  function Describe(text: string, d: Draft, albums: set<string>): (r: Turn)
    ensures r.albums == albums
    ensures r.session == Idle <==> text == CancelText
    ensures r.session == Idle ==> r.reply == CreationCancelled
    ensures r.session == Filling(EquipmentStep, d) <==> text == BackText
    ensures text != CancelText && text != BackText ==>
      r.reply == Ask(PriorityStep) && r.session == Filling(PriorityStep, d.(description := Some(text)))
  {
    if text == CancelText then Cancelled(albums)
    else if text == BackText then Turn(ReturnedTo(EquipmentStep), Filling(EquipmentStep, d), albums)
    else Turn(Ask(PriorityStep), Filling(PriorityStep, d.(description := Some(text))), albums)
  }

  /** The Priority step listens to text only. */
  function OnPriority(m: Message, d: Draft, albums: set<string>): (r: Turn)
    ensures r.albums == albums
    ensures !m.TextMsg? ==> r.reply == Unhandled && r.session == Filling(PriorityStep, d)
    ensures m.TextMsg? ==> (r.session == Idle <==> Strip(m.text) == CancelText)
    ensures m.TextMsg? ==> (r.session == Filling(DescriptionStep, d) <==> Strip(m.text) == BackText)
    ensures r.session.Filling? ==> r.session.step == DescriptionStep || r.session.step == PhotoStep || r.session.step == PriorityStep
    ensures r.session.Filling? && r.session.step == PhotoStep ==>
      && m.TextMsg? && r.session.draft.priority.Some?
      && r.session.draft == d.(priority := r.session.draft.priority)
      && IsPriority(r.session.draft.priority.value)
      && (r.session.draft.priority.value == HighPriority <==> Lower(Strip(m.text)) == HighPriority)
  {
    match m
    case TextMsg(t) =>
      var raw := Strip(t);
      if raw == CancelText then Cancelled(albums)
      else if raw == BackText then Turn(ReturnedTo(DescriptionStep), Filling(DescriptionStep, d), albums)
      else Turn(Ask(PhotoStep), Filling(PhotoStep, d.(priority := Some(NormalisePriority(raw)))), albums)
    case _ => Turn(Unhandled, Filling(PriorityStep, d), albums)
  }

  /** The Photo step: buttons first, then albums (warned about once per album id), then a photo
      or an explicit "no photo" submits; anything else is asked again. */
  function OnPhoto(m: Message, d: Draft, albums: set<string>): (r: Turn)
    ensures albums <= r.albums
    ensures m.OtherMsg? ==> r == Turn(Unhandled, Filling(PhotoStep, d), albums)
    ensures r.albums != albums ==> m.PhotoMsg? && Truthy(m.mediaGroup) && r.albums == albums + {m.mediaGroup.value}
  {
    match m
    case OtherMsg => Turn(Unhandled, Filling(PhotoStep, d), albums)
    case TextMsg(t) =>
      if t == "" then Turn(NeedPhoto, Filling(PhotoStep, d), albums)
      else if Strip(t) == CancelText then Cancelled(albums)
      else if Strip(t) == BackText then Turn(ReturnedTo(PriorityStep), Filling(PriorityStep, d), albums)
      else if Strip(Lower(t)) == NoText || Strip(t) == NoPhotoText then Submit(d, None, albums)
      else Turn(NeedPhoto, Filling(PhotoStep, d), albums)
    case PhotoMsg(_, fileId, group) =>
      if Truthy(group) then
        if group.value in albums then Turn(AlbumIgnored, Filling(PhotoStep, d), albums)
        else Turn(AlbumWarning, Filling(PhotoStep, d), albums + {group.value})
      else Submit(d, Some(fileId), albums)
  }

  /** The form is finished before the answers are read, so a missing answer ends the form without a ticket. */
  function Submit(d: Draft, photo: Option<string>, albums: set<string>): (r: Turn)
    ensures r.session == Idle && r.albums == albums
    ensures r.reply.Submitted? <==> d.equipment.Some? && d.description.Some? && d.priority.Some?
    ensures r.reply.Submitted? ==> r.reply.submission.photo == photo
    ensures !r.reply.Submitted? ==> r.reply == MissingAnswer
  {
    if d.equipment.Some? && d.description.Some? && d.priority.Some? then
      Turn(Submitted(Submission(d.equipment.value, d.description.value, d.priority.value, photo)), Idle, albums)
    else
      Turn(MissingAnswer, Idle, albums)
  }

  /** The "new ticket" button outside a form: staff are refused, unregistered senders are sent to register. */
  function StartIntake(isStaff: bool, profile: Option<Tickets.Profile>, albums: set<string>): (r: Turn)
    ensures r.albums == albums
    ensures r.session.Filling? <==> !isStaff && Tickets.IsRegistered(profile)
    ensures r.session.Filling? ==> r.session == Filling(EquipmentStep, EmptyDraft) && r.reply == Ask(EquipmentStep)
  {
    if isStaff then Turn(StaffOnly, Idle, albums)
    else if !Tickets.IsRegistered(profile) then Turn(NotRegistered, Idle, albums)
    else Turn(Ask(EquipmentStep), Filling(EquipmentStep, EmptyDraft), albums)
  }

  /** One message from a sender. Outside a form only the "new ticket" button does anything here;
      inside one, the handler for the current step takes the message. */
  function Receive(s: Session, m: Message, albums: set<string>, isStaff: bool, profile: Option<Tickets.Profile>): (r: Turn)
    ensures albums <= r.albums
    ensures r.albums != albums ==> s.Filling? && s.step == PhotoStep && r.reply == AlbumWarning
    ensures s.Idle? && m != TextMsg(NewTicketText) ==> r == Turn(Unhandled, Idle, albums)
    ensures s.Idle? ==> (r.session.Filling? <==> m == TextMsg(NewTicketText) && !isStaff && Tickets.IsRegistered(profile))
    ensures s.Idle? && r.session.Filling? ==> r.session == Filling(EquipmentStep, EmptyDraft)
  {
    match s
    case Idle =>
      if m == TextMsg(NewTicketText) then StartIntake(isStaff, profile, albums)
      else Turn(Unhandled, Idle, albums)
    case Filling(step, d) =>
      match step
      case EquipmentStep => OnEquipment(m, d, albums)
      case DescriptionStep => OnDescription(m, d, albums)
      case PriorityStep => OnPriority(m, d, albums)
      case PhotoStep => OnPhoto(m, d, albums)
  }

  /** The cancel button ends the form at every step, with no ticket and the answers dropped. */
  lemma CancelAtAnyStep(step: Step, d: Draft, t: string, albums: set<string>, isStaff: bool, profile: Option<Tickets.Profile>)
    requires Strip(t) == CancelText
    ensures Receive(Filling(step, d), TextMsg(t), albums, isStaff, profile) == Turn(CreationCancelled, Idle, albums)
  {
  }

  /** The step before `step`, for the back button. */
  function Previous(step: Step): (r: Step)
    requires step != EquipmentStep
    ensures Rank(r) + 1 == Rank(step)
  {
    match step
    case DescriptionStep => EquipmentStep
    case PriorityStep => DescriptionStep
    case PhotoStep => PriorityStep
  }

  /** The back button moves exactly one step back and keeps every answer given so far. */
  lemma BackOneStep(step: Step, d: Draft, t: string, albums: set<string>, isStaff: bool, profile: Option<Tickets.Profile>)
    requires step != EquipmentStep && Strip(t) == BackText
    ensures Receive(Filling(step, d), TextMsg(t), albums, isStaff, profile) == Turn(ReturnedTo(Previous(step)), Filling(Previous(step), d), albums)
  {
  }

  /** At the first step there is nothing to go back to: the back label is taken as free-text equipment. */
  lemma BackAtFirstStep(d: Draft, t: string, albums: set<string>, isStaff: bool, profile: Option<Tickets.Profile>)
    requires Strip(t) == BackText
    ensures Receive(Filling(EquipmentStep, d), TextMsg(t), albums, isStaff, profile).session
      == Filling(DescriptionStep, d.(equipment := Some(OtherPrefix + BackText)))
  {
    assert BackText !in EquipmentChoices;
  }

  /** A photo without a caption at the two text steps changes nothing and asks for text. */
  lemma CaptionlessPhotoAsksAgain(step: Step, d: Draft, fileId: string, group: Option<string>, caption: Option<string>,
                                  albums: set<string>, isStaff: bool, profile: Option<Tickets.Profile>)
    requires step == EquipmentStep || step == DescriptionStep
    requires !Truthy(caption)
    ensures Receive(Filling(step, d), PhotoMsg(caption, fileId, group), albums, isStaff, profile)
      == Turn(NeedText(step), Filling(step, d), albums)
  {
  }

  /** The equipment answer is stored as the button label, or as the prefixed free text. */
  lemma EquipmentAnswer(d: Draft, t: string, albums: set<string>, isStaff: bool, profile: Option<Tickets.Profile>)
    requires Strip(t) != CancelText
    ensures var r := Receive(Filling(EquipmentStep, d), TextMsg(t), albums, isStaff, profile);
      && r.session.Filling? && r.session.step == DescriptionStep
      && r.session.draft.equipment.Some?
      && (Strip(t) in EquipmentChoices ==> r.session.draft.equipment.value == Strip(t))
      && (Strip(t) !in EquipmentChoices ==> r.session.draft.equipment.value == OtherPrefix + Strip(t))
      && EnteredText(r.session.draft.equipment.value) == Strip(t)
  {
    EquipmentRoundTrip(Strip(t));
  }

  /** Whatever is typed at the priority step (other than the two buttons), the stored priority is one of the two levels. */
  lemma PriorityAnswer(d: Draft, t: string, albums: set<string>, isStaff: bool, profile: Option<Tickets.Profile>)
    requires Strip(t) != CancelText && Strip(t) != BackText
    ensures var r := Receive(Filling(PriorityStep, d), TextMsg(t), albums, isStaff, profile);
      && r.session.Filling? && r.session.step == PhotoStep
      && r.session.draft.priority.Some? && IsPriority(r.session.draft.priority.value)
      && (r.session.draft.priority.value == HighPriority <==> Lower(Strip(t)) == HighPriority)
  {
  }

  /** A message of an album never submits; only the first message of each album is answered,
      and the album id is remembered from then on. */
  lemma AlbumNeverSubmits(d: Draft, caption: Option<string>, fileId: string, group: string,
                          albums: set<string>, isStaff: bool, profile: Option<Tickets.Profile>)
    requires group != ""
    ensures var r := Receive(Filling(PhotoStep, d), PhotoMsg(caption, fileId, Some(group)), albums, isStaff, profile);
      && r.session == Filling(PhotoStep, d)
      && r.albums == albums + {group}
      && (r.reply == AlbumWarning <==> group !in albums)
      && (r.reply == AlbumIgnored <==> group in albums)
  {
  }

  /** A second message of the same album is ignored silently. */
  lemma AlbumWarnedOnce(d: Draft, c1: Option<string>, f1: string, c2: Option<string>, f2: string, group: string,
                        albums: set<string>, isStaff: bool, profile: Option<Tickets.Profile>)
    requires group != ""
    ensures var r1 := Receive(Filling(PhotoStep, d), PhotoMsg(c1, f1, Some(group)), albums, isStaff, profile);
      Receive(r1.session, PhotoMsg(c2, f2, Some(group)), r1.albums, isStaff, profile).reply == AlbumIgnored
  {
  }

  /** A single photo at the last step submits it and ends the form. */
  lemma PhotoSubmits(d: Draft, caption: Option<string>, fileId: string, group: Option<string>,
                     albums: set<string>, isStaff: bool, profile: Option<Tickets.Profile>)
    requires WellFormedDraft(PhotoStep, d) && !Truthy(group)
    ensures var r := Receive(Filling(PhotoStep, d), PhotoMsg(caption, fileId, group), albums, isStaff, profile);
      && r.session == Idle && r.albums == albums
      && r.reply == Submitted(Submission(d.equipment.value, d.description.value, d.priority.value, Some(fileId)))
  {
  }

  /** "нет" (in any case, with any surrounding space) or the no-photo button submits without a photo. */
  lemma NoPhotoSubmits(d: Draft, t: string, albums: set<string>, isStaff: bool, profile: Option<Tickets.Profile>)
    requires WellFormedDraft(PhotoStep, d)
    requires Strip(Lower(t)) == NoText || Strip(t) == NoPhotoText
    ensures var r := Receive(Filling(PhotoStep, d), TextMsg(t), albums, isStaff, profile);
      && r.session == Idle && r.albums == albums
      && r.reply == Submitted(Submission(d.equipment.value, d.description.value, d.priority.value, None))
  {
    StripLower(t);
    assert |Lower(Strip(t))| == |Strip(t)|;
  }

  /** Any other text at the last step asks for a photo again and keeps the form where it is. */
  lemma OtherTextAsksForPhoto(d: Draft, t: string, albums: set<string>, isStaff: bool, profile: Option<Tickets.Profile>)
    requires Strip(t) != CancelText && Strip(t) != BackText
    requires Strip(Lower(t)) != NoText && Strip(t) != NoPhotoText
    ensures Receive(Filling(PhotoStep, d), TextMsg(t), albums, isStaff, profile) == Turn(NeedPhoto, Filling(PhotoStep, d), albums)
  {
  }

  /** Whatever arrives, the form moves at most one step, and forward only by storing that step's answer. */
  lemma MovesOneStep(step: Step, d: Draft, m: Message, albums: set<string>, isStaff: bool, profile: Option<Tickets.Profile>)
    ensures var r := Receive(Filling(step, d), m, albums, isStaff, profile);
      r.session.Filling? ==>
        && -1 <= Rank(r.session.step) - Rank(step) <= 1
        && (Rank(r.session.step) <= Rank(step) ==> r.session.draft == d)
  {
  }

  /** Every turn keeps the session well formed. */
  lemma ReceivePreservesWellFormed(s: Session, m: Message, albums: set<string>, isStaff: bool, profile: Option<Tickets.Profile>)
    requires WellFormedSession(s)
    ensures WellFormedSession(Receive(s, m, albums, isStaff, profile).session)
  {
  }

  /** From a well-formed session the form never ends on a missing answer, and what it submits is normalised. */
  lemma SubmissionIsComplete(s: Session, m: Message, albums: set<string>, isStaff: bool, profile: Option<Tickets.Profile>)
    requires WellFormedSession(s)
    ensures var r := Receive(s, m, albums, isStaff, profile);
      && r.reply != MissingAnswer
      && (r.reply.Submitted? ==>
            IsEquipmentValue(r.reply.submission.equipment) && IsPriority(r.reply.submission.priority))
  {
  }

  /** A sequence of messages from one sender, starting from session `s`. */
  function Conversation(s: Session, msgs: seq<Message>, albums: set<string>, isStaff: bool, profile: Option<Tickets.Profile>): (r: Turn)
    decreases |msgs|
  {
    if msgs == [] then Turn(Unhandled, s, albums)
    else
      var t := Receive(s, msgs[0], albums, isStaff, profile);
      Conversation(t.session, msgs[1..], t.albums, isStaff, profile)
  }

  /** Over a whole conversation the session stays well formed and the album set only grows. */
  lemma {:induction false} ConversationInvariant(s: Session, msgs: seq<Message>, albums: set<string>, isStaff: bool, profile: Option<Tickets.Profile>)
    requires WellFormedSession(s)
    ensures var r := Conversation(s, msgs, albums, isStaff, profile);
      WellFormedSession(r.session) && albums <= r.albums
    decreases |msgs|
  {
    if msgs != [] {
      var t := Receive(s, msgs[0], albums, isStaff, profile);
      ReceivePreservesWellFormed(s, msgs[0], albums, isStaff, profile);
      ConversationInvariant(t.session, msgs[1..], t.albums, isStaff, profile);
    }
  }
}

=== FILE: lifecycle.dfy ===
/**
 * The ticket lifecycle: the three buttons that move a ticket (a technician's
 * "take" and "done", the sender's "cancel") and the creation of a ticket from
 * a finished intake form.
 *
 * Each button press is a total function from the store to an outcome and the
 * new store. The guards are checked in the order the handlers check them, and
 * a refused press leaves the store as it was.
 */
module Lifecycle {
  import opened Wrappers
  import opened Tickets
  import Registry
  import Intake

  /** Why a press is refused; the names carry the executor name the refusal shows. */
  datatype Reason =
    | NotTechnician
    | NotFound
    | NotClaimed
    | AlreadyDone
    | AlreadyCancelled
    | TakenBy(name: string)
    | ClosedOnlyBy(name: string)
    | OnlySender

  datatype Outcome =
    | Claimed
    | AlreadyAssigned
    | Completed
    | Cancelled
    | Rejected(reason: Reason)
    | NotDispatched

  datatype Transition = Transition(outcome: Outcome, store: Store)

  /** Shown in place of an executor whose name is empty. */
  const OtherTechnician := "другой техник"

  function ShownName(name: string): (r: string)
    ensures r != ""
    ensures name != "" ==> r == name
  {
    if name != "" then name else OtherTechnician
  }

  /** `callback_take`. `name` is the technician's display name as `get_technician_name` resolves it. */
  function Take(store: Store, roster: set<int>, user: int, id: int, name: string): (r: Transition)
    ensures r.outcome != Claimed ==> r.store == store
    ensures r.outcome == Claimed <==>
      user in roster && id in store && store[id].status == Created
    ensures r.outcome == Claimed ==>
      r.store == store[id := store[id].(status := InProgress, executorId := Some(user), executorName := name)]
    ensures user !in roster ==> r.outcome == Rejected(NotTechnician)
    ensures user in roster && id !in store ==> r.outcome == Rejected(NotFound)
  {
    if user !in roster then Transition(Rejected(NotTechnician), store)
    else if id !in store then Transition(Rejected(NotFound), store)
    else
      var t := store[id];
      if t.status == Done then Transition(Rejected(AlreadyDone), store)
      else if t.status == CancelledByUser then Transition(Rejected(AlreadyCancelled), store)
      else if t.status == InProgress then
        if t.executorId == Some(user) then Transition(AlreadyAssigned, store)
        else Transition(Rejected(TakenBy(ShownName(t.executorName))), store)
      else
        Transition(Claimed, UpdateTicket(store, id, Patch(Some(InProgress), Some(Some(user)), Some(name))))
  }

  /** `callback_done`. The first guard reads `executor_id` by truthiness, as does the executor check. */
  function Finish(store: Store, roster: set<int>, user: int, id: int, name: string): (r: Transition)
    ensures r.outcome != Completed ==> r.store == store
    ensures r.outcome == Completed <==>
      && user in roster && id in store
      && (store[id].status == InProgress || (store[id].status == Created && HasExecutor(store[id])))
      && (HasExecutor(store[id]) ==> store[id].executorId == Some(user))
    ensures r.outcome == Completed ==>
      r.store == store[id := store[id].(status := Done, executorId := Some(user), executorName := name)]
    ensures user !in roster ==> r.outcome == Rejected(NotTechnician)
    ensures user in roster && id !in store ==> r.outcome == Rejected(NotFound)
  {
    if user !in roster then Transition(Rejected(NotTechnician), store)
    else if id !in store then Transition(Rejected(NotFound), store)
    else
      var t := store[id];
      if t.status == Created && !HasExecutor(t) then Transition(Rejected(NotClaimed), store)
      else if t.status == Done then Transition(Rejected(AlreadyDone), store)
      else if t.status == CancelledByUser then Transition(Rejected(AlreadyCancelled), store)
      else if HasExecutor(t) && t.executorId != Some(user) then
        Transition(Rejected(ClosedOnlyBy(ShownName(t.executorName))), store)
      else
        Transition(Completed, UpdateTicket(store, id, Patch(Some(Done), Some(Some(user)), Some(name))))
  }

  /** `callback_user_cancel`: only the sender, and only before the ticket is done; a ticket in progress may be cancelled. */
  function Cancel(store: Store, user: int, id: int): (r: Transition)
    ensures r.outcome != Cancelled ==> r.store == store
    ensures r.outcome == Cancelled <==>
      id in store && store[id].senderId == user && !IsTerminal(store[id].status)
    ensures r.outcome == Cancelled ==> r.store == store[id := store[id].(status := CancelledByUser)]
    ensures id !in store ==> r.outcome == Rejected(NotFound)
    ensures id in store && store[id].senderId != user ==> r.outcome == Rejected(OnlySender)
  {
    if id !in store then Transition(Rejected(NotFound), store)
    else
      var t := store[id];
      if t.senderId != user then Transition(Rejected(OnlySender), store)
      else if t.status == Done then Transition(Rejected(AlreadyDone), store)
      else if t.status == CancelledByUser then Transition(Rejected(AlreadyCancelled), store)
      else Transition(Cancelled, UpdateTicket(store, id, Patch(Some(CancelledByUser), None, None)))
  }

  /** A button press: who pressed which button on which ticket, with the presser's display name. */
  datatype Event =
    | TakeEvent(user: int, id: int, name: string)
    | DoneEvent(user: int, id: int, name: string)
    | CancelEvent(user: int, id: int)
  {
    function Target(): int
    {
      match this
      case TakeEvent(_, id, _) => id
      case DoneEvent(_, id, _) => id
      case CancelEvent(_, id) => id
    }
  }

  /** A press handed to the handler its button belongs to. */
  function Step(store: Store, roster: set<int>, e: Event): (r: Transition)
    ensures r.outcome != NotDispatched
    ensures e.TakeEvent? ==>
      (r.outcome == Claimed <==> e.user in roster && e.id in store && store[e.id].status == Created)
    ensures e.DoneEvent? ==>
      (r.outcome == Completed <==>
        && e.user in roster && e.id in store
        && (store[e.id].status == InProgress || (store[e.id].status == Created && HasExecutor(store[e.id])))
        && (HasExecutor(store[e.id]) ==> store[e.id].executorId == Some(e.user)))
    ensures e.CancelEvent? ==>
      (r.outcome == Cancelled <==> e.id in store && store[e.id].senderId == e.user && !IsTerminal(store[e.id].status))
    ensures r.outcome == Claimed ==> e.TakeEvent? && e.id in r.store && r.store[e.id].status == InProgress
    ensures r.outcome == Completed ==> e.DoneEvent? && e.id in r.store && r.store[e.id].status == Done
    ensures r.outcome == Cancelled ==> e.CancelEvent? && e.id in r.store && r.store[e.id].status == CancelledByUser
  {
    match e
    case TakeEvent(user, id, name) => Take(store, roster, user, id, name)
    case DoneEvent(user, id, name) => Finish(store, roster, user, id, name)
    case CancelEvent(user, id) => Cancel(store, user, id)
  }

  /** The store after a sequence of presses, one after another. */
  function Run(store: Store, roster: set<int>, events: seq<Event>): Store
    decreases |events|
  {
    if events == [] then store
    else Run(Step(store, roster, events[0]).store, roster, events[1..])
  }

  /** How a press reaches its handler in the program. The three button handlers are registered
      without a `state` argument, so the dispatcher's default state filter admits them only when
      the presser has no conversation state in that chat: during a ticket form the press is
      dropped without an answer. */
  function Press(store: Store, roster: set<int>, e: Event, presser: Intake.Session): (r: Transition)
    ensures presser.Filling? ==> r.outcome == NotDispatched && r.store == store
    ensures presser.Idle? ==> r == Step(store, roster, e)
  {
    if presser.Idle? then Step(store, roster, e) else Transition(NotDispatched, store)
  }

  /** The dispatch the buttons evidently intend (registration with `state="*"`, as `/start` has):
      every press reaches its handler, whatever form the presser is filling in. */
  function PressAnyState(store: Store, roster: set<int>, e: Event, presser: Intake.Session): (r: Transition)
    ensures r.outcome != NotDispatched
    ensures e.CancelEvent? && e.id in store && store[e.id].senderId == e.user && !IsTerminal(store[e.id].status) ==>
      r.outcome == Cancelled && e.id in r.store && r.store[e.id].status == CancelledByUser
    ensures e.TakeEvent? && e.user in roster && e.id in store && store[e.id].status == Created ==>
      r.outcome == Claimed && e.id in r.store && r.store[e.id].executorId == Some(e.user)
  {
    Step(store, roster, e)
  }

  /** As written, a sender who has started a new form cannot cancel an earlier ticket: the press
      is dropped and the ticket stays open, where the intended dispatch cancels it. */
  lemma CancelDroppedDuringForm(store: Store, roster: set<int>, user: int, id: int, step: Intake.Step, d: Intake.Draft)
    requires id in store && store[id].senderId == user && !IsTerminal(store[id].status)
    ensures Press(store, roster, CancelEvent(user, id), Intake.Filling(step, d)) == Transition(NotDispatched, store)
    ensures PressAnyState(store, roster, CancelEvent(user, id), Intake.Filling(step, d)).outcome == Cancelled
    ensures PressAnyState(store, roster, CancelEvent(user, id), Intake.Filling(step, d)).store != store
  {
  }

  /** Either way a press keeps the row invariant, since a dropped press changes nothing. */
  lemma PressPreservesWellFormed(store: Store, roster: set<int>, e: Event, presser: Intake.Session)
    requires WellFormed(store)
    ensures WellFormed(Press(store, roster, e, presser).store)
    ensures WellFormed(PressAnyState(store, roster, e, presser).store)
  {
  }

  /** The columns no press ever writes: everything but status and executor. */
  predicate SameContent(t: Ticket, u: Ticket)
  {
    t.(status := u.status, executorId := u.executorId, executorName := u.executorName) == u
  }

  /** A press touches only the ticket it names, never adds or removes a ticket, and never
      rewrites anything but the status and executor columns. */
  lemma StepIsLocal(store: Store, roster: set<int>, e: Event)
    ensures var r := Step(store, roster, e).store;
      && r.Keys == store.Keys
      && (forall k :: k in store && k != e.Target() ==> r[k] == store[k])
      && (forall k :: k in store ==> SameContent(store[k], r[k]))
  {
  }

  /** Done and cancelled tickets are final: no press changes them. */
  lemma TerminalIsAbsorbing(store: Store, roster: set<int>, e: Event, id: int)
    requires id in store && IsTerminal(store[id].status)
    ensures Step(store, roster, e).store[id] == store[id]
    ensures e.Target() == id ==> Step(store, roster, e).outcome.Rejected?
  {
    StepIsLocal(store, roster, e);
  }

  /** ... and stay final over any sequence of presses. */
  lemma {:induction false} TerminalStaysTerminal(store: Store, roster: set<int>, events: seq<Event>, id: int)
    requires id in store && IsTerminal(store[id].status)
    ensures id in Run(store, roster, events) && Run(store, roster, events)[id] == store[id]
    decreases |events|
  {
    if events != [] {
      var next := Step(store, roster, events[0]).store;
      TerminalIsAbsorbing(store, roster, events[0], id);
      StepIsLocal(store, roster, events[0]);
      TerminalStaysTerminal(next, roster, events[1..], id);
    }
  }

  /** Every press keeps the row invariant: a fresh ticket has no executor, a taken or done one has one. */
  lemma StepPreservesWellFormed(store: Store, roster: set<int>, e: Event)
    requires WellFormed(store)
    ensures WellFormed(Step(store, roster, e).store)
  {
  }

  lemma {:induction false} RunPreservesWellFormed(store: Store, roster: set<int>, events: seq<Event>)
    requires WellFormed(store)
    ensures WellFormed(Run(store, roster, events))
    decreases |events|
  {
    if events != [] {
      StepPreservesWellFormed(store, roster, events[0]);
      RunPreservesWellFormed(Step(store, roster, events[0]).store, roster, events[1..]);
    }
  }

  /** Progress order of the statuses: a ticket only ever moves forward. */
  function Progress(s: Status): nat
  {
    match s
    case Created => 0
    case InProgress => 1
    case Done => 2
    case CancelledByUser => 2
  }

  lemma StepMovesForward(store: Store, roster: set<int>, e: Event, id: int)
    requires id in store
    ensures id in Step(store, roster, e).store
    ensures Progress(store[id].status) <= Progress(Step(store, roster, e).store[id].status)
  {
  }

  lemma {:induction false} RunMovesForward(store: Store, roster: set<int>, events: seq<Event>, id: int)
    requires id in store
    ensures id in Run(store, roster, events)
    ensures Progress(store[id].status) <= Progress(Run(store, roster, events)[id].status)
    ensures SameContent(store[id], Run(store, roster, events)[id])
    decreases |events|
  {
    if events != [] {
      var next := Step(store, roster, events[0]).store;
      StepMovesForward(store, roster, events[0], id);
      StepIsLocal(store, roster, events[0]);
      RunMovesForward(next, roster, events[1..], id);
    }
  }

  /** In a well-formed store a fresh ticket has no executor, so "done" before "take" is refused. */
  lemma DoneNeedsTake(store: Store, roster: set<int>, user: int, id: int, name: string)
    requires WellFormed(store) && user in roster && id in store && store[id].status == Created
    ensures Finish(store, roster, user, id, name) == Transition(Rejected(NotClaimed), store)
  {
  }

  /** The technician who took a ticket can close it. */
  lemma ExecutorCanFinish(store: Store, roster: set<int>, user: int, id: int, name: string)
    requires user in roster && id in store && store[id].status == InProgress && store[id].executorId == Some(user)
    ensures Finish(store, roster, user, id, name).outcome == Completed
  {
  }

  /** Nobody else can close a ticket in progress, and the refusal names its executor. */
  lemma OnlyExecutorFinishes(store: Store, roster: set<int>, user: int, id: int, name: string)
    requires id in store && store[id].status == InProgress && HasExecutor(store[id])
    requires store[id].executorId != Some(user)
    ensures Finish(store, roster, user, id, name).store == store
    ensures user in roster ==>
      Finish(store, roster, user, id, name).outcome == Rejected(ClosedOnlyBy(ShownName(store[id].executorName)))
  {
  }

  /** Only the sender can cancel, whatever the status. */
  lemma OnlySenderCancels(store: Store, user: int, id: int)
    requires id in store && store[id].senderId != user
    ensures Cancel(store, user, id) == Transition(Rejected(OnlySender), store)
  {
  }

  /** Cancelling keeps who was working on the ticket. */
  lemma CancelKeepsExecutor(store: Store, user: int, id: int)
    requires Cancel(store, user, id).outcome == Cancelled
    ensures var t := Cancel(store, user, id).store[id];
      t.executorId == store[id].executorId && t.executorName == store[id].executorName
      && t.status == CancelledByUser
  {
  }

  /** Two technicians pressing "take" one after the other: the first claims the ticket,
      the second is refused with the first one's name and changes nothing. */
  lemma SecondTakeIsRefused(store: Store, roster: set<int>, a: int, nameA: string, b: int, nameB: string, id: int)
    requires a in roster && b in roster && a != b
    requires id in store && store[id].status == Created
    ensures var first := Take(store, roster, a, id, nameA);
      && first.outcome == Claimed
      && Take(first.store, roster, b, id, nameB) == Transition(Rejected(TakenBy(ShownName(nameA))), first.store)
  {
  }

  /** Pressing "take" again as the executor is acknowledged and changes nothing. */
  lemma TakeIsIdempotent(store: Store, roster: set<int>, user: int, id: int, name: string, name2: string)
    requires user in roster && id in store && store[id].status == Created
    ensures var first := Take(store, roster, user, id, name);
      Take(first.store, roster, user, id, name2) == Transition(AlreadyAssigned, first.store)
  {
  }

  /** A technician removed with `/deltech` can no longer take or close tickets. */
  lemma RemovedTechnicianIsRefused(store: Store, roster: set<int>, user: int, id: int, name: string)
    requires Registry.DelTech(roster, user).Some?
    ensures var after := Registry.DelTech(roster, user).value;
      && Take(store, after, user, id, name) == Transition(Rejected(NotTechnician), store)
      && Finish(store, after, user, id, name) == Transition(Rejected(NotTechnician), store)
  {
  }

  /** A technician added with `/addtech` passes the roster guard. */
  lemma AddedTechnicianMayTake(store: Store, roster: set<int>, names: map<int, string>, user: int, displayName: string, id: int, name: string)
    requires id in store && store[id].status == Created
    ensures Take(store, Registry.AddTech(roster, names, user, displayName).0, user, id, name).outcome == Claimed
  {
  }

  const UnknownStore := "не указан"
  const UnnamedSender := "Без имени"

  /** The store and name a new ticket is filed under: the sender's profile when there is one
      (with placeholders for empty fields), otherwise the name the platform shows. */
  function SenderFields(profile: Option<Profile>, platformName: string): (r: (string, string))
    ensures r.0 != "" && r.1 != ""
    ensures profile.Some? && profile.value.store != "" ==> r.0 == profile.value.store
    ensures profile.Some? && profile.value.displayName != "" ==> r.1 == profile.value.displayName
    ensures profile.Some? && profile.value.store == "" ==> r.0 == UnknownStore
    ensures profile.Some? && profile.value.displayName == "" ==> r.1 == UnnamedSender
    ensures profile.None? ==> r.0 == UnknownStore && (platformName != "" ==> r.1 == platformName)
    ensures profile.None? && platformName == "" ==> r.1 == UnnamedSender
  {
    match profile
    case Some(p) =>
      (if p.store != "" then p.store else UnknownStore,
       if p.displayName != "" then p.displayName else UnnamedSender)
    case None =>
      (UnknownStore, if platformName != "" then platformName else UnnamedSender)
  }

  /** Filing a submitted form: the next free id, and a fresh row with the answers and the sender's fields.
      `created` and `adminMsgId` come from the clock and from posting to the admin chat. */
  method CreateTicket(store: Store, sub: Intake.Submission, senderId: int, profile: Option<Profile>,
                      platformName: string, created: string, adminMsgId: int) returns (id: int, r: Store)
    ensures id !in store && forall k :: k in store ==> k < id
    ensures r.Keys == store.Keys + {id}
    ensures forall k :: k in store ==> r[k] == store[k]
    ensures var t := r[id];
      && t.id == id && t.senderId == senderId
      && t.equipment == sub.equipment && t.description == sub.description && t.priority == sub.priority
      && t.status == Created && t.executorId.None? && t.executorName == ""
      && (t.store, t.senderName) == SenderFields(profile, platformName)
    ensures WellFormed(store) ==> WellFormed(r)
  {
    id := NextTicketId(store);
    var (storeNumber, senderName) := SenderFields(profile, platformName);
    var t := NewTicket(id, created, storeNumber, senderId, senderName,
                       sub.equipment, sub.description, sub.priority, adminMsgId);
    r := store[id := t];
  }
}

=== FILE: registry.dfy ===
/**
 * The two registry files and the technician roster.
 *
 * The store directory holds lines `number | address`; the technician file holds
 * one numeric user id per line, optionally followed by `| comment`. Both loaders
 * strip each line and skip blank lines and `#` comments; everything else that
 * does not fit the format is dropped silently.
 */
module Registry {
  import opened Wrappers
  import opened Strings

  /** A line both loaders skip before looking at its content. */
  predicate IsBlankOrComment(line: string)
  {
    var t := Strip(line);
    t == [] || t[0] == '#'
  }

  /** What a store id read from the directory looks like. */
  predicate IsStoreId(k: string)
  {
    k != [] && IsTrimmed(k) && '|' !in k && k[0] != '#'
  }

  /** One line of the store directory: the id and address it defines, if any. */
  function ParseStoreLine(line: string): (r: Option<(string, string)>)
    ensures r.Some? ==> IsStoreId(r.value.0) && r.value.1 != [] && IsTrimmed(r.value.1)
    ensures IsBlankOrComment(line) ==> r.None?
  {
    StoreFields(Strip(line))
  }

  /** The fields of a stripped directory line: split at the first `|`, both sides stripped and non-empty. */
  function StoreFields(t: string): (r: Option<(string, string)>)
    requires IsTrimmed(t)
    ensures r.Some? ==> IsStoreId(r.value.0) && r.value.1 != [] && IsTrimmed(r.value.1)
    ensures r.Some? ==> '|' in t && Strip(SplitFirst(t, '|').0) == r.value.0 && Strip(SplitFirst(t, '|').1) == r.value.1
  {
    if t == [] || t[0] == '#' then None
    else if '|' !in t then None
    else
      var (a, b) := SplitFirst(t, '|');
      var number := Strip(a);
      var address := Strip(b);
      if number == [] || address == [] then None
      else
        StoreIdOfField(t, a, b);
        Some((number, address))
  }

  /** The stripped text left of the first `|` of a stripped, non-comment line is a store id when non-empty. */
  lemma StoreIdOfField(t: string, a: string, b: string)
    requires IsTrimmed(t) && t != [] && t[0] != '#'
    requires t == a + "|" + b && '|' !in a
    requires Strip(a) != []
    ensures IsStoreId(Strip(a))
  {
    StripKeeps(a);
    assert a != [] && a[0] == t[0];
  }

  /** A well-formed directory line, with any whitespace around its two fields, is read back. */
  lemma StoreLineRead(p1: string, k: string, p2: string, p3: string, v: string, p4: string)
    requires AllSpace(p1) && AllSpace(p2) && AllSpace(p3) && AllSpace(p4)
    requires IsStoreId(k) && v != [] && IsTrimmed(v)
    ensures ParseStoreLine(p1 + k + p2 + "|" + p3 + v + p4) == Some((k, v))
  {
    StripStoreLine(p1, k, p2, p3, v, p4);
    StoreFieldsRead(k, p2, p3, v);
  }

  lemma StripStoreLine(p1: string, k: string, p2: string, p3: string, v: string, p4: string)
    requires AllSpace(p1) && AllSpace(p4)
    requires IsStoreId(k) && v != [] && IsTrimmed(v)
    ensures Strip(p1 + k + p2 + "|" + p3 + v + p4) == k + p2 + "|" + p3 + v
  {
    var body := k + p2 + "|" + p3 + v;
    assert p1 + k + p2 + "|" + p3 + v + p4 == p1 + body + p4;
    assert body[0] == k[0] && body[|body| - 1] == v[|v| - 1];
    StripPadded(p1, body, p4);
  }

  lemma StoreFieldsRead(k: string, p2: string, p3: string, v: string)
    requires AllSpace(p2) && AllSpace(p3)
    requires IsStoreId(k) && v != [] && IsTrimmed(v)
    ensures IsTrimmed(k + p2 + "|" + p3 + v)
    ensures StoreFields(k + p2 + "|" + p3 + v) == Some((k, v))
  {
    var left := k + p2;
    var right := p3 + v;
    var body := left + "|" + right;
    assert body == k + p2 + "|" + p3 + v;
    assert body[0] == k[0] && body[|body| - 1] == v[|v| - 1];
    SplitFirstJoin(left, '|', right);
    assert [] + k + p2 == left;
    StripPadded([], k, p2);
    assert p3 + v + [] == right;
    StripPadded(p3, v, []);
  }

  /** Conversely, every line the parser accepts is an id and an address, separated by `|` and padded with whitespace. */
  lemma StoreLineShape(line: string) returns (p1: string, p2: string, p3: string, p4: string)
    requires ParseStoreLine(line).Some?
    ensures AllSpace(p1) && AllSpace(p2) && AllSpace(p3) && AllSpace(p4)
    ensures line == p1 + ParseStoreLine(line).value.0 + p2 + "|" + p3 + ParseStoreLine(line).value.1 + p4
  {
    var k := ParseStoreLine(line).value.0;
    var v := ParseStoreLine(line).value.1;
    var t := Strip(line);
    var pre, post := StripShape(line);
    var (a, b) := SplitFirst(t, '|');
    var qa1, qa2 := StripShape(a);
    var qb1, qb2 := StripShape(b);
    Regroup(line, pre, qa1, k, qa2, qb1, v, qb2, post);
    AllSpaceConcat(pre, qa1);
    AllSpaceConcat(qb2, post);
    p1, p2, p3, p4 := pre + qa1, qa2, qb1, qb2 + post;
  }

  lemma Regroup(line: string, pre: string, qa1: string, k: string, qa2: string, qb1: string, v: string, qb2: string, post: string)
    requires line == pre + ((qa1 + k + qa2) + "|" + (qb1 + v + qb2)) + post
    ensures line == (pre + qa1) + k + qa2 + "|" + qb1 + v + (qb2 + post)
  {
  }

  /** A line without a `|` defines nothing. */
  lemma StoreLineNeedsBar(line: string)
    requires '|' !in line
    ensures ParseStoreLine(line) == None
  {
    StripKeeps(line);
  }

  /** A line whose id side is blank defines nothing, whatever follows the `|`. */
  lemma StoreLineNeedsId(p: string, rest: string)
    requires AllSpace(p)
    ensures ParseStoreLine(p + "|" + rest) == None
  {
    StripBarFirst(p, rest);
    StoreFieldsNeedId(TrimEnd(rest));
  }

  lemma StripBarFirst(p: string, rest: string)
    requires AllSpace(p)
    ensures Strip(p + "|" + rest) == "|" + TrimEnd(rest)
  {
    assert p + "|" + rest == p + ("|" + rest);
    TrimStartPadded(p, "|" + rest);
    TrimEndAfter("|", rest);
  }

  lemma StoreFieldsNeedId(x: string)
    requires IsTrimmed("|" + x)
    ensures StoreFields("|" + x) == None
  {
    assert [] + "|" + x == "|" + x;
    SplitFirstJoin([], '|', x);
  }

  /** A line whose address side is blank defines nothing. */
  lemma StoreLineNeedsAddress(left: string, p: string)
    requires '|' !in left && AllSpace(p)
    ensures ParseStoreLine(left + "|" + p) == None
  {
    var line := left + "|" + p;
    var t := Strip(line);
    if t != [] && t[0] != '#' && '|' in t {
      var pre, post := StripShape(line);
      var (a, b) := SplitFirst(t, '|');
      FirstBar(line, left, p, pre, a, b, post);
      BlankHead(b, post, p);
    }
  }

  /** The front of a blank text strips to nothing. */
  lemma BlankHead(b: string, post: string, p: string)
    requires b + post == p && AllSpace(p)
    ensures Strip(b) == []
  {
    assert AllSpace(b) by {
      assert forall i :: 0 <= i < |b| ==> b[i] == p[i];
    }
    assert b + [] + [] == b;
    StripPadded(b, [], []);
  }

  /** The first `|` of a line is the first `|` of its stripped text. */
  lemma FirstBar(line: string, left: string, p: string, pre: string, a: string, b: string, post: string)
    requires line == left + "|" + p && '|' !in left
    requires line == pre + (a + "|" + b) + post && '|' !in a && AllSpace(pre)
    ensures b + post == p
  {
    var i := |pre| + |a|;
    assert line[i] == '|';
    assert line[|left|] == '|';
    assert forall j :: 0 <= j < |left| ==> line[j] == left[j];
    forall j | 0 <= j < i
      ensures line[j] != '|'
    {
      if j < |pre| {
        assert line[j] == pre[j];
      } else {
        assert line[j] == a[j - |pre|];
      }
    }
    assert line[i + 1..] == p;
    assert line[i + 1..] == b + post;
  }

  /** Entry `i` defines key `k`. */
  ghost predicate Defines(entries: seq<Option<(string, string)>>, i: int, k: string)
    requires 0 <= i < |entries|
  {
    entries[i].Some? && entries[i].value.0 == k
  }

  /** Entry `i` is the last of the first `n` entries that defines key `k`. */
  ghost predicate LastDefinition(entries: seq<Option<(string, string)>>, n: nat, k: string, i: int)
  {
    && 0 <= i < n <= |entries|
    && Defines(entries, i, k)
    && forall j :: i < j < n ==> !Defines(entries, j, k)
  }

  /** Folds parsed lines into a table in file order, so that a later entry for a key replaces an earlier one. */
  method LastWins(entries: seq<Option<(string, string)>>) returns (m: map<string, string>)
    ensures forall k :: k in m ==> exists i :: 0 <= i < |entries| && entries[i] == Some((k, m[k]))
    ensures forall k, i :: 0 <= i < |entries| && Defines(entries, i, k) ==> k in m
    ensures forall k, i :: LastDefinition(entries, |entries|, k, i) ==> k in m && m[k] == entries[i].value.1
  {
    m := map[];
    var n := 0;
    while n < |entries|
      invariant 0 <= n <= |entries|
      invariant forall k :: k in m ==> exists i :: 0 <= i < n && entries[i] == Some((k, m[k]))
      invariant forall k, i :: 0 <= i < n && Defines(entries, i, k) ==> k in m
      invariant forall k, i :: LastDefinition(entries, n, k, i) ==> k in m && m[k] == entries[i].value.1
    {
      var m' := if entries[n].Some? then m[entries[n].value.0 := entries[n].value.1] else m;
      forall k, i | LastDefinition(entries, n + 1, k, i)
        ensures k in m' && m'[k] == entries[i].value.1
      {
        if i < n {
          assert !Defines(entries, n, k);
          assert LastDefinition(entries, n, k, i);
          assert m'[k] == m[k];
        } else {
          assert entries[n] == Some((k, entries[n].value.1));
        }
      }
      forall k | k in m'
        ensures exists i :: 0 <= i < n + 1 && entries[i] == Some((k, m'[k]))
      {
        if entries[n].Some? && k == entries[n].value.0 {
          assert entries[n] == Some((k, m'[k]));
        } else {
          var i :| 0 <= i < n && entries[i] == Some((k, m[k]));
        }
      }
      m := m';
      n := n + 1;
    }
  }

  /** `line` is a directory line that defines store `k`. */
  ghost predicate DefinesStore(line: string, k: string)
  {
    ParseStoreLine(line).Some? && ParseStoreLine(line).value.0 == k
  }

  /** `load_store_addresses`: every store some line defines, with the address of its last definition. */
  method LoadStoreAddresses(lines: seq<string>) returns (m: map<string, string>)
    ensures forall k :: k in m ==> IsStoreId(k) && m[k] != []
    ensures forall k :: k in m <==> exists i :: 0 <= i < |lines| && DefinesStore(lines[i], k)
    ensures forall k, i :: LastDefinition(ParsedLines(lines), |lines|, k, i) ==> k in m && m[k] == ParseStoreLine(lines[i]).value.1
  {
    var entries := ParsedLines(lines);
    m := LastWins(entries);
    forall k | k in m
      ensures IsStoreId(k) && m[k] != []
      ensures exists i :: 0 <= i < |lines| && DefinesStore(lines[i], k)
    {
      var i :| 0 <= i < |entries| && entries[i] == Some((k, m[k]));
      assert DefinesStore(lines[i], k);
    }
    forall k, i | 0 <= i < |lines| && DefinesStore(lines[i], k)
      ensures k in m
    {
      assert Defines(entries, i, k);
    }
  }

  /** Each line of the directory, parsed. */
  function ParsedLines(lines: seq<string>): (r: seq<Option<(string, string)>>)
    ensures |r| == |lines| && forall i :: 0 <= i < |lines| ==> r[i] == ParseStoreLine(lines[i])
  {
    seq(|lines|, i requires 0 <= i < |lines| => ParseStoreLine(lines[i]))
  }

  /** One line of the technician file: the user id it lists, if any. */
  function ParseTechLine(line: string): (r: Option<int>)
    ensures r.Some? ==> r.value >= 0
    ensures IsBlankOrComment(line) ==> r.None?
  {
    TechField(Strip(line))
  }

  /** The id of a stripped technician line: the stripped text left of the first `|`, if it is all digits. */
  function TechField(t: string): (r: Option<int>)
    ensures r.Some? ==> t != [] && t[0] != '#' && r.value >= 0
    ensures IsTrimmed(t) && '|' !in t && t != [] && t[0] != '#' ==>
      (r.Some? <==> IsDecimal(t)) && (r.Some? ==> r.value == DecimalValue(t))
  {
    if t == [] || t[0] == '#' then None
    else
      var left := Strip(if '|' in t then SplitFirst(t, '|').0 else t);
      assert IsTrimmed(t) ==> Strip(t) == t by {
        if IsTrimmed(t) {
          StripTrimmed(t);
        }
      }
      if IsDecimal(left) then Some(DecimalValue(left)) else None
  }

  /** The decimal form of an id, with whitespace around it, is read back as that id. */
  lemma TechLineRead(n: nat, p1: string, p2: string)
    requires AllSpace(p1) && AllSpace(p2)
    ensures ParseTechLine(p1 + NatToString(n) + p2) == Some(n)
  {
    var d := NatToString(n);
    DecimalRoundTrip(n);
    StripTechLine(d, p1, p2);
    DecimalIsTrimmed(d);
    StripTrimmed(d);
  }

  /** So is the documented form `id | comment`, whatever the comment holds. */
  lemma CommentedTechLineRead(n: nat, p1: string, p2: string, comment: string)
    requires AllSpace(p1) && AllSpace(p2)
    ensures ParseTechLine(p1 + NatToString(n) + p2 + "|" + comment) == Some(n)
  {
    var d := NatToString(n);
    DecimalRoundTrip(n);
    DecimalIsTrimmed(d);
    StripCommentedTechLine(d, p1, p2, comment);
    TechFieldCommented(d, p2, TrimEnd(comment));
  }

  lemma TechFieldCommented(d: string, p2: string, rest: string)
    requires AllSpace(p2) && IsDecimal(d)
    ensures TechField((d + p2) + "|" + rest) == Some(DecimalValue(d))
  {
    DecimalIsTrimmed(d);
    FieldThenSpace(d, p2);
    SplitFirstJoin(d + p2, '|', rest);
  }

  /** A field without `|`, followed by whitespace, holds no `|` and strips to the field. */
  lemma FieldThenSpace(d: string, p2: string)
    requires AllSpace(p2) && IsTrimmed(d) && '|' !in d
    ensures '|' !in d + p2 && Strip(d + p2) == d
  {
    assert forall i :: 0 <= i < |p2| ==> p2[i] != '|';
    assert [] + d + p2 == d + p2;
    StripPadded([], d, p2);
  }

  lemma StripTechLine(d: string, p1: string, p2: string)
    requires AllSpace(p1) && AllSpace(p2) && IsDecimal(d)
    ensures Strip(p1 + d + p2) == d
  {
    DecimalIsTrimmed(d);
    StripPadded(p1, d, p2);
  }

  lemma StripCommentedTechLine(d: string, p1: string, p2: string, comment: string)
    requires AllSpace(p1) && AllSpace(p2) && d != [] && IsTrimmed(d)
    ensures Strip(p1 + d + p2 + "|" + comment) == (d + p2) + "|" + TrimEnd(comment)
  {
    var head := d + p2 + "|";
    assert p1 + d + p2 + "|" + comment == p1 + (head + comment);
    TrimStartPadded(p1, head + comment);
    TrimEndAfter(head, comment);
  }

  /** Conversely, every line the technician file yields an id from is that id in decimal digits,
      padded with whitespace, and optionally followed by `|` and anything at all. */
  lemma TechLineShape(line: string) returns (p1: string, d: string, p2: string, rest: string)
    requires ParseTechLine(line).Some?
    ensures AllSpace(p1) && AllSpace(p2)
    ensures IsDecimal(d) && DecimalValue(d) == ParseTechLine(line).value
    ensures line == p1 + d + p2 || line == p1 + d + p2 + "|" + rest
  {
    var t := Strip(line);
    var pre, post := StripShape(line);
    if '|' in t {
      var (a, b) := SplitFirst(t, '|');
      var qa1, qa2 := StripShape(a);
      d := Strip(a);
      AllSpaceConcat(pre, qa1);
      p1, p2, rest := pre + qa1, qa2, b + post;
      assert line == pre + ((qa1 + d + qa2) + "|" + b) + post;
      RegroupField(line, pre, qa1, d, qa2, b, post);
    } else {
      StripIdempotent(line);
      p1, d, p2, rest := pre, t, post, [];
    }
  }

  lemma RegroupField(line: string, pre: string, qa1: string, d: string, qa2: string, b: string, post: string)
    requires line == pre + ((qa1 + d + qa2) + "|" + b) + post
    ensures line == (pre + qa1) + d + qa2 + "|" + (b + post)
  {
  }

  /** A line whose text left of the first `|` is not all digits lists nobody. */
  lemma TechLineNeedsDigits(p1: string, w: string, p2: string, rest: string)
    requires AllSpace(p1) && AllSpace(p2) && '|' !in w
    requires IsTrimmed(w) && !IsDecimal(w)
    ensures ParseTechLine(p1 + w + p2) == None
    ensures ParseTechLine(p1 + w + p2 + "|" + rest) == None
  {
    StripPadded(p1, w, p2);
    StripTrimmed(w);
    if w == [] {
      AllSpaceConcat(p1, p2);
      assert p1 + w + p2 + "|" + rest == (p1 + p2) + "|" + rest;
      StripBarFirst(p1 + p2, rest);
      assert [] + "|" + TrimEnd(rest) == "|" + TrimEnd(rest);
      SplitFirstJoin([], '|', TrimEnd(rest));
    } else {
      StripCommentedTechLine(w, p1, p2, rest);
      FieldThenSpace(w, p2);
      SplitFirstJoin(w + p2, '|', TrimEnd(rest));
    }
  }

  /** `load_tech_ids_from_file`: exactly the ids some line lists. */
  method LoadTechIds(lines: seq<string>) returns (ids: set<int>)
    ensures forall id :: id in ids ==> id >= 0
    ensures forall id :: id in ids <==> exists i :: 0 <= i < |lines| && ParseTechLine(lines[i]) == Some(id)
  {
    var entries := seq(|lines|, i requires 0 <= i < |lines| => ParseTechLine(lines[i]));
    ids := CollectIds(entries);
    assert forall i :: 0 <= i < |lines| ==> entries[i] == ParseTechLine(lines[i]);
  }

  /** The ids present among `entries`, collected in order. */
  method CollectIds(entries: seq<Option<int>>) returns (ids: set<int>)
    ensures forall id :: id in ids <==> exists i :: 0 <= i < |entries| && entries[i] == Some(id)
  {
    ids := {};
    var n := 0;
    while n < |entries|
      invariant 0 <= n <= |entries|
      invariant forall id :: id in ids <==> exists i :: 0 <= i < n && entries[i] == Some(id)
    {
      if entries[n].Some? {
        ids := ids + {entries[n].value};
      }
      n := n + 1;
    }
  }

  /** `/addtech`: the id joins the roster and, when a display name is given, gets that name. */
  function AddTech(roster: set<int>, names: map<int, string>, id: int, displayName: string): (r: (set<int>, map<int, string>))
    ensures r.0 == roster + {id}
    ensures r.1.Keys == names.Keys + (if displayName != "" then {id} else {})
    ensures forall u :: u in names && u != id ==> r.1[u] == names[u]
    ensures id in r.1 ==> r.1[id] == (if displayName != "" then displayName else names[id])
  {
    (roster + {id}, if displayName != "" then names[id := displayName] else names)
  }

  /** `/deltech`: an id on the roster leaves it; one that is not listed is refused. */
  function DelTech(roster: set<int>, id: int): (r: Option<set<int>>)
    ensures r.Some? <==> id in roster
    ensures r.Some? ==> id !in r.value && r.value + {id} == roster && |r.value| == |roster| - 1
  {
    if id !in roster then None else Some(roster - {id})
  }

  /** Removing a technician just added gives back the roster without them. */
  lemma AddThenDelete(roster: set<int>, names: map<int, string>, id: int, displayName: string)
    ensures DelTech(AddTech(roster, names, id, displayName).0, id) == Some(roster - {id})
  {
    assert (roster + {id}) - {id} == roster - {id};
  }

  /** Adding back a technician just removed restores the roster. */
  lemma DeleteThenAdd(roster: set<int>, names: map<int, string>, id: int, displayName: string)
    requires DelTech(roster, id).Some?
    ensures AddTech(DelTech(roster, id).value, names, id, displayName).0 == roster
  {
  }
}

=== FILE: render.dfy ===
/**
 * The two decisions inside `format_ticket_text`: the status line (with a link
 * to the executor once someone works on the ticket) and whether the ticket
 * shows its store's address.
 */
module Render {
  import opened Wrappers
  import opened Strings
  import opened Tickets

  const LinkHead := "<a href=\"tg://user?id="
  const LinkMid := "\">"
  const LinkEnd := "</a>"

  /** An HTML link that opens a user's profile. */
  function UserLink(user: int, name: string): (r: string)
    ensures |r| > |name| + 4
    ensures r[|r| - |name| - 4..] == name + "</a>"
  {
    LinkHead + (IntToString(user) + (LinkMid + (name + LinkEnd)))
  }

  /** Different users, or different names, never give the same link. */
  lemma UserLinkInjective(u: int, n: string, v: int, m: string)
    requires UserLink(u, n) == UserLink(v, m)
    ensures u == v && n == m
  {
    var x := IntToString(u) + (LinkMid + (n + LinkEnd));
    var y := IntToString(v) + (LinkMid + (m + LinkEnd));
    DropHead(LinkHead, x, y);
    NoQuoteInInt(u);
    NoQuoteInInt(v);
    UpToQuote(IntToString(u), LinkMid + (n + LinkEnd), IntToString(v), LinkMid + (m + LinkEnd));
    IntToStringInjective(u, v);
    DropHead(LinkMid, n + LinkEnd, m + LinkEnd);
    DropTail(n, m);
  }

  lemma DropHead(head: string, x: string, y: string)
    requires head + x == head + y
    ensures x == y
  {
    assert x == (head + x)[|head|..];
    assert y == (head + y)[|head|..];
  }

  /** Two texts free of `"`, each followed by something starting with `"`, are split at the same place. */
  lemma UpToQuote(a: string, p: string, b: string, q: string)
    requires a + p == b + q
    requires p != [] && p[0] == '"' && q != [] && q[0] == '"'
    requires forall k :: 0 <= k < |a| ==> a[k] != '"'
    requires forall k :: 0 <= k < |b| ==> b[k] != '"'
    ensures a == b && p == q
  {
    var x := a + p;
    assert a == x[..|a|] && b == x[..|b|];
    assert p == x[|a|..] && q == x[|b|..];
  }

  lemma DropTail(n: string, m: string)
    requires n + LinkEnd == m + LinkEnd
    ensures n == m
  {
    assert n == (n + LinkEnd)[..|n|];
    assert m == (m + LinkEnd)[..|m|];
  }

  lemma NoQuoteInInt(i: int)
    ensures forall k :: 0 <= k < |IntToString(i)| ==> IntToString(i)[k] != '"'
  {
    var d := NatToString(if i < 0 then -i else i);
    assert IsDecimal(d);
  }

  lemma IntToStringInjective(u: int, v: int)
    requires IntToString(u) == IntToString(v)
    ensures u == v
  {
    var a := IntToString(u);
    if u >= 0 && v >= 0 {
      DecimalRoundTrip(u);
      DecimalRoundTrip(v);
    } else if u < 0 && v < 0 {
      DecimalRoundTrip(-u);
      DecimalRoundTrip(-v);
    }
  }

  /** The status line: the label, followed by the executor (linked when the id is truthy)
      for a ticket in progress or done whose executor name is non-empty. */
  function StatusText(status: Status, executorName: string, executorId: Option<int>): (r: string)
    ensures |StatusLabel(status)| <= |r| && r[..|StatusLabel(status)|] == StatusLabel(status)
    ensures r == StatusLabel(status) <==> status == Created || status == CancelledByUser || executorName == ""
  {
    if (status == InProgress || status == Done) && executorName != "" then
      if executorId.Some? && executorId.value != 0 then
        StatusLabel(status) + " " + UserLink(executorId.value, executorName)
      else
        StatusLabel(status) + " " + executorName
    else
      StatusLabel(status)
  }

  function StartsWith(s: string, prefix: string): bool
  {
    |prefix| <= |s| && s[..|prefix|] == prefix
  }

  /** Reading a status back from the front of a status line. */
  function ReadStatus(text: string): (r: Option<Status>)
    ensures r.Some? ==> StartsWith(text, StatusLabel(r.value))
  {
    if StartsWith(text, StatusLabel(Created)) then Some(Created)
    else if StartsWith(text, StatusLabel(InProgress)) then Some(InProgress)
    else if StartsWith(text, StatusLabel(Done)) then Some(Done)
    else if StartsWith(text, StatusLabel(CancelledByUser)) then Some(CancelledByUser)
    else None
  }

  /** No status label begins with another, so a label at the front of a text names one status. */
  lemma LabelsArePrefixFree(s: Status, u: Status, text: string)
    requires StartsWith(text, StatusLabel(s)) && StartsWith(text, StatusLabel(u))
    ensures s == u
  {
    var a := StatusLabel(s);
    var b := StatusLabel(u);
    assert text[0] == a[0] == b[0];
    assert text[1] == a[1] == b[1];
    assert text[6] == a[6] == b[6];
  }

  /** The status line always names the ticket's status first, whatever follows. */
  lemma StatusTextReadBack(status: Status, executorName: string, executorId: Option<int>)
    ensures ReadStatus(StatusText(status, executorName, executorId)) == Some(status)
  {
    var text := StatusText(status, executorName, executorId);
    var r := ReadStatus(text);
    if r.Some? {
      LabelsArePrefixFree(r.value, status, text);
    } else {
      assert StartsWith(text, StatusLabel(status));
    }
  }

  /** The executor shown on the line is the one given, linked to the given id. */
  lemma StatusTextNamesExecutor(status: Status, executorName: string, user: int)
    requires status == InProgress || status == Done
    requires executorName != "" && user != 0
    ensures StatusText(status, executorName, Some(user)) == StatusLabel(status) + " " + UserLink(user, executorName)
  {
  }

  /** With a falsy executor id the name is shown as plain text, without a link. */
  lemma StatusTextPlainName(status: Status, executorName: string, executorId: Option<int>)
    requires status == InProgress || status == Done
    requires executorName != "" && (executorId.None? || executorId.value == 0)
    ensures StatusText(status, executorName, executorId) == StatusLabel(status) + " " + executorName
  {
  }

  /** The sender's name on the ticket, with a placeholder when it is empty. */
  function SenderLabel(senderName: string): (r: string)
    ensures r != ""
    ensures senderName != "" ==> r == senderName
  {
    if senderName != "" then senderName else "Отправитель"
  }

  /** The address shown under the store line: only with a non-empty store number and a loaded
      directory, looked up under the stripped number, and only when the address is non-empty. */
  function AddressFor(store: string, addresses: map<string, string>): (r: Option<string>)
    ensures r.Some? <==> store != "" && Strip(store) in addresses && addresses[Strip(store)] != ""
    ensures r.Some? ==> r.value == addresses[Strip(store)]
  {
    if store != "" && addresses != map[] then
      var key := Strip(store);
      if key in addresses && addresses[key] != "" then Some(addresses[key]) else None
    else
      None
  }

  /** A store number typed with surrounding whitespace still finds the address the directory lists for it. */
  lemma AddressOfListedStore(addresses: map<string, string>, k: string, p: string, q: string)
    requires k in addresses && IsTrimmed(k) && k != ""
    requires forall key :: key in addresses ==> addresses[key] != ""
    requires AllSpace(p) && AllSpace(q)
    ensures AddressFor(p + k + q, addresses) == Some(addresses[k])
  {
    StripPadded(p, k, q);
  }

  /** A store number the directory does not list shows no address. */
  lemma NoAddressForUnlisted(addresses: map<string, string>, store: string)
    requires Strip(store) !in addresses
    ensures AddressFor(store, addresses) == None
  {
  }
}

=== FILE: strings.dfy ===
/**
 * The handful of Python string primitives the bot relies on, written out over
 * `seq<char>`: `str.strip()`, `str.isdigit()` with `int(...)`, `str.lower()`,
 * `str.find` / `str.split(sep, 1)` and f-string formatting of integers.
 */
module Strings {
  import opened Wrappers

  /** The characters `str.strip()` removes when called without arguments
      (Python's whitespace: controls 9-13 and 28-31, separators, line and paragraph breaks). */
  predicate IsSpace(c: char)
  {
    || ('\U{9}' <= c <= '\U{D}')
    || ('\U{1C}' <= c <= '\U{20}')
    || c == '\U{85}' || c == '\U{A0}' || c == '\U{1680}'
    || ('\U{2000}' <= c <= '\U{200A}')
    || c == '\U{2028}' || c == '\U{2029}' || c == '\U{202F}' || c == '\U{205F}'
    || c == '\U{3000}'
  }

  ghost predicate AllSpace(s: string)
  {
    forall i :: 0 <= i < |s| ==> IsSpace(s[i])
  }

  /** Neither end of `s` is whitespace. */
  predicate IsTrimmed(s: string)
  {
    s == [] || (!IsSpace(s[0]) && !IsSpace(s[|s| - 1]))
  }

  /** `s.lstrip()`: the longest suffix of `s` that does not start with whitespace. */
  function TrimStart(s: string): (r: string)
    ensures |r| <= |s|
    ensures r == [] || !IsSpace(r[0])
    ensures r != [] ==> r[|r| - 1] == s[|s| - 1]
    ensures AllSpace(s[..|s| - |r|])
    decreases |s|
  {
    if |s| > 0 && IsSpace(s[0]) then
      var r := TrimStart(s[1..]);
      assert s[..|s| - |r|] == [s[0]] + s[1..][..|s| - 1 - |r|];
      r
    else s
  }

  /** `s.rstrip()`: the longest prefix of `s` that does not end in whitespace. */
  function TrimEnd(s: string): (r: string)
    ensures |r| <= |s|
    ensures r == [] || !IsSpace(r[|r| - 1])
    ensures r != [] ==> r[0] == s[0]
    ensures AllSpace(s[|r|..])
    decreases |s|
  {
    if |s| > 0 && IsSpace(s[|s| - 1]) then
      var r := TrimEnd(s[..|s| - 1]);
      assert s[|r|..] == s[..|s| - 1][|r|..] + [s[|s| - 1]];
      r
    else s
  }

  /** What lstrip removes is a prefix: the result is the rest of `s`. */
  lemma {:induction false} TrimStartIsSuffix(s: string)
    ensures TrimStart(s) == s[|s| - |TrimStart(s)|..]
    decreases |s|
  {
    if |s| > 0 && IsSpace(s[0]) {
      TrimStartIsSuffix(s[1..]);
    }
  }

  /** What rstrip removes is a suffix: the result is the start of `s`. */
  lemma {:induction false} TrimEndIsPrefix(s: string)
    ensures TrimEnd(s) == s[..|TrimEnd(s)|]
    decreases |s|
  {
    if |s| > 0 && IsSpace(s[|s| - 1]) {
      TrimEndIsPrefix(s[..|s| - 1]);
    }
  }

  /** What lstrip removes is whitespace in front of its result. */
  lemma TrimStartSplit(s: string) returns (p: string)
    ensures AllSpace(p) && s == p + TrimStart(s)
  {
    TrimStartIsSuffix(s);
    p := s[..|s| - |TrimStart(s)|];
  }

  /** What rstrip removes is whitespace after its result. */
  lemma TrimEndSplit(t: string) returns (q: string)
    ensures AllSpace(q) && t == TrimEnd(t) + q
  {
    TrimEndIsPrefix(t);
    q := t[|TrimEnd(t)|..];
  }

  /** Strip removes whitespace only: `s` is the stripped text with whitespace around it. */
  lemma StripShape(s: string) returns (p: string, q: string)
    ensures AllSpace(p) && AllSpace(q)
    ensures s == p + Strip(s) + q
  {
    var t := TrimStart(s);
    p := TrimStartSplit(s);
    q := TrimEndSplit(t);
    assert s == p + (TrimEnd(t) + q);
  }

  lemma AllSpaceConcat(a: string, b: string)
    requires AllSpace(a) && AllSpace(b)
    ensures AllSpace(a + b)
  {
  }

  /** Strip introduces no character. */
  lemma StripKeeps(s: string)
    ensures forall c :: c in Strip(s) ==> c in s
  {
    var p, q := StripShape(s);
    assert s == p + Strip(s) + q;
  }

  /** `s.strip()`: `s` with leading and trailing whitespace removed. */
  function Strip(s: string): (r: string)
    ensures IsTrimmed(r)
    ensures |r| <= |s|
    ensures s != [] && !IsSpace(s[0]) ==> r == TrimEnd(s) && (r == [] || r[0] == s[0])
  {
    TrimEnd(TrimStart(s))
  }

  lemma {:induction false} TrimStartPadded(p: string, t: string)
    requires AllSpace(p)
    requires t == [] || !IsSpace(t[0])
    ensures TrimStart(p + t) == t
    decreases |p|
  {
    if p == [] {
      assert p + t == t;
    } else {
      assert (p + t)[1..] == p[1..] + t;
      TrimStartPadded(p[1..], t);
    }
  }

  lemma {:induction false} TrimEndPadded(t: string, q: string)
    requires AllSpace(q)
    requires t == [] || !IsSpace(t[|t| - 1])
    ensures TrimEnd(t + q) == t
    decreases |q|
  {
    if q == [] {
      assert t + q == t;
    } else {
      assert (t + q)[..|t + q| - 1] == t + q[..|q| - 1];
      TrimEndPadded(t, q[..|q| - 1]);
    }
  }

  /** Trailing whitespace is only removed from the part after a non-space character. */
  lemma {:induction false} TrimEndAfter(x: string, y: string)
    requires x != [] && !IsSpace(x[|x| - 1])
    ensures TrimEnd(x + y) == x + TrimEnd(y)
    decreases |y|
  {
    if y == [] {
      assert x + y == x;
      TrimEndPadded(x, []);
      assert x + [] == x;
    } else if IsSpace(y[|y| - 1]) {
      assert (x + y)[..|x + y| - 1] == x + y[..|y| - 1];
      TrimEndAfter(x, y[..|y| - 1]);
    }
  }

  /** Strip recovers the trimmed core of any whitespace-padded string. */
  lemma StripPadded(p: string, m: string, q: string)
    requires AllSpace(p) && AllSpace(q) && IsTrimmed(m)
    ensures Strip(p + m + q) == m
  {
    if m == [] {
      assert p + m + q == (p + q) + [];
      TrimStartPadded(p + q, []);
    } else {
      assert p + m + q == p + (m + q);
      TrimStartPadded(p, m + q);
      TrimEndPadded(m, q);
    }
  }

  /** Stripping twice is stripping once. */
  lemma StripIdempotent(s: string)
    ensures Strip(Strip(s)) == Strip(s)
  {
    var m := Strip(s);
    assert [] + m + [] == m;
    StripPadded([], m, []);
  }

  /** A string without whitespace at either end is left alone by Strip. */
  lemma StripTrimmed(s: string)
    requires IsTrimmed(s)
    ensures Strip(s) == s
  {
    assert [] + s + [] == s;
    StripPadded([], s, []);
  }

  predicate IsDigit(c: char)
  {
    '0' <= c <= '9'
  }

  /** `s.isdigit()` for ASCII text: non-empty and nothing but digits. */
  predicate IsDecimal(s: string)
  {
    |s| > 0 && forall i :: 0 <= i < |s| ==> IsDigit(s[i])
  }

  function DigitValue(c: char): (d: nat)
    requires IsDigit(c)
    ensures d < 10
  {
    c as int - '0' as int
  }

  function DigitChar(d: nat): (c: char)
    requires d < 10
    ensures IsDigit(c) && DigitValue(c) == d
  {
    ('0' as int + d) as char
  }

  /** `int(s)` for a string of decimal digits. */
  function DecimalValue(s: string): (r: nat)
    requires forall i :: 0 <= i < |s| ==> IsDigit(s[i])
    ensures r == 0 <==> forall i :: 0 <= i < |s| ==> s[i] == '0'
    decreases |s|
  {
    if s == [] then 0 else DecimalValue(s[..|s| - 1]) * 10 + DigitValue(s[|s| - 1])
  }

  /** `str(n)` for a natural number: its shortest decimal form. */
  function NatToString(n: nat): (r: string)
    ensures IsDecimal(r)
    ensures r[0] == '0' ==> n == 0
    decreases n
  {
    if n < 10 then [DigitChar(n)] else NatToString(n / 10) + [DigitChar(n % 10)]
  }

  /** `int(str(n)) == n`. */
  lemma {:induction false} DecimalRoundTrip(n: nat)
    ensures DecimalValue(NatToString(n)) == n
    decreases n
  {
    var s := NatToString(n);
    if n < 10 {
      assert s[..|s| - 1] == [];
    } else {
      var p := NatToString(n / 10);
      assert s[..|s| - 1] == p;
      DecimalRoundTrip(n / 10);
    }
  }

  /** `str(int(s)) == s` for a digit string without a leading zero: `int()` loses nothing on canonical input. */
  lemma {:induction false} CanonicalDecimalRoundTrip(s: string)
    requires IsDecimal(s) && (s[0] == '0' ==> |s| == 1)
    ensures NatToString(DecimalValue(s)) == s
    decreases |s|
  {
    var n := DecimalValue(s);
    var c := s[|s| - 1];
    assert DigitChar(DigitValue(c)) == c;
    if |s| > 1 {
      var p := s[..|s| - 1];
      assert p[0] == s[0];
      assert DecimalValue(p) > 0 by {
        assert p[0] != '0';
      }
      assert n / 10 == DecimalValue(p) && n % 10 == DigitValue(c);
      CanonicalDecimalRoundTrip(p);
      assert s == p + [c];
    }
  }

  /** A decimal form has no whitespace at either end. */
  lemma DecimalIsTrimmed(s: string)
    requires IsDecimal(s)
    ensures IsTrimmed(s) && forall i :: 0 <= i < |s| ==> !IsSpace(s[i]) && s[i] != '|' && s[i] != '#'
  {
  }

  /** An integer in an f-string: a minus sign for negatives, then the digits. */
  function IntToString(i: int): (r: string)
    ensures |r| > 0
    ensures i >= 0 ==> r == NatToString(i)
    ensures i < 0 ==> r[0] == '-' && r[1..] == NatToString(-i)
  {
    if i < 0 then "-" + NatToString(-i) else NatToString(i)
  }

  /** Python's `str.lower()` on one character, for ASCII and Cyrillic letters. */
  function LowerChar(c: char): char
  {
    if 'A' <= c <= 'Z' then (c as int + 32) as char
    else if '\U{410}' <= c <= '\U{42F}' then (c as int + 32) as char
    else if '\U{400}' <= c <= '\U{40F}' then (c as int + 80) as char
    else c
  }

  /** `s.lower()`, character by character. */
  function Lower(s: string): (r: string)
    ensures |r| == |s|
  {
    seq(|s|, i requires 0 <= i < |s| => LowerChar(s[i]))
  }

  /** Lower-casing maps whitespace to itself and nothing else to whitespace. */
  lemma LowerCharSpace(c: char)
    ensures IsSpace(LowerChar(c)) <==> IsSpace(c)
    ensures IsSpace(c) ==> LowerChar(c) == c
  {
  }

  /** Lower-casing changes only the upper-case ASCII and Cyrillic letters. */
  lemma LowerKeeps(s: string)
    ensures forall i :: 0 <= i < |s| && !('A' <= s[i] <= 'Z') && !('\U{400}' <= s[i] <= '\U{42F}') ==> Lower(s)[i] == s[i]
  {
  }

  /** The capital letters `str.lower()` is modelled for, and their small letters in the same order:
      the Latin alphabet and the Russian alphabet with Ё. */
  const UpperLatin := "ABCDEFGHIJKLMNOPQRSTUVWXYZ"
  const LowerLatin := "abcdefghijklmnopqrstuvwxyz"
  const UpperRussian := "ЁАБВГДЕЖЗИЙКЛМНОПРСТУФХЦЧШЩЪЫЬЭЮЯ"
  const LowerRussian := "ёабвгдежзийклмнопрстуфхцчшщъыьэюя"

  /** Lower-casing gives `t` when it gives `t`'s letter at every position. */
  lemma LowerPointwise(s: string, t: string)
    requires |s| == |t| && forall i :: 0 <= i < |s| ==> LowerChar(s[i]) == t[i]
    ensures Lower(s) == t
  {
  }

  /** Every Latin capital becomes its own small letter. */
  lemma LowerLatinCapitals()
    ensures Lower(UpperLatin) == LowerLatin
  {
    LowerPointwise(UpperLatin, LowerLatin);
  }

  /** Every Russian capital, Ё included, becomes its own small letter. */
  lemma LowerRussianCapitals()
    ensures Lower(UpperRussian) == LowerRussian
  {
    LowerPointwise(UpperRussian, LowerRussian);
  }

  /** Small Latin letters stay as they are. */
  lemma LowerKeepsLatin()
    ensures Lower(LowerLatin) == LowerLatin
  {
    LowerPointwise(LowerLatin, LowerLatin);
  }

  /** Small Russian letters stay as they are. */
  lemma LowerKeepsRussian()
    ensures Lower(LowerRussian) == LowerRussian
  {
    LowerPointwise(LowerRussian, LowerRussian);
  }

  /** Lower-casing twice is lower-casing once. */
  lemma LowerIdempotent(s: string)
    ensures Lower(Lower(s)) == Lower(s)
  {
  }

  lemma LowerConcat(a: string, b: string)
    ensures Lower(a + b) == Lower(a) + Lower(b)
  {
  }

  /** `s.lower().strip() == s.strip().lower()`: lower-casing neither adds nor removes surrounding whitespace. */
  lemma StripLower(s: string)
    ensures Strip(Lower(s)) == Lower(Strip(s))
  {
    var p, q := StripShape(s);
    var m := Strip(s);
    LowerConcat(p + m, q);
    LowerConcat(p, m);
    forall i | 0 <= i < |p|
      ensures Lower(p)[i] == p[i]
    {
      LowerCharSpace(p[i]);
    }
    forall i | 0 <= i < |q|
      ensures Lower(q)[i] == q[i]
    {
      LowerCharSpace(q[i]);
    }
    assert Lower(p) == p && Lower(q) == q;
    if m != [] {
      LowerCharSpace(m[0]);
      LowerCharSpace(m[|m| - 1]);
    }
    StripPadded(p, Lower(m), q);
  }

  /** `s.find(c)`: the position of the first `c` in `s`, if any. */
  function IndexOf(s: string, c: char): (r: Option<nat>)
    ensures r.None? <==> c !in s
    ensures r.Some? ==> r.value < |s| && s[r.value] == c && c !in s[..r.value]
    decreases |s|
  {
    if s == [] then None
    else if s[0] == c then Some(0)
    else match IndexOf(s[1..], c)
      case None => None
      case Some(k) =>
        assert s[..k + 1] == [s[0]] + s[1..][..k];
        Some(k + 1)
  }

  /** `s.split(c, 1)` when `c` occurs in `s`: the text before the first `c` and the rest. */
  function SplitFirst(s: string, c: char): (r: (string, string))
    requires c in s
    ensures s == r.0 + [c] + r.1
    ensures c !in r.0
  {
    var k := IndexOf(s, c).value;
    assert s == s[..k] + [c] + s[k + 1..];
    (s[..k], s[k + 1..])
  }

  /** Splitting at the first separator undoes joining around one, whatever the right side holds. */
  lemma SplitFirstJoin(a: string, c: char, b: string)
    requires c !in a
    ensures c in a + [c] + b
    ensures SplitFirst(a + [c] + b, c) == (a, b)
  {
    var s := a + [c] + b;
    assert s[|a|] == c;
    var k := IndexOf(s, c).value;
    assert k == |a|;
    assert s[..k] == a && s[k + 1..] == b;
  }
}

=== FILE: tickets.dfy ===
/**
 * The ticket store: the `tickets` table as a map from ticket id to row, the
 * field-subset update every transition goes through, id assignment, and the
 * two small side tables (technician display names, sender profiles).
 */
module Tickets {
  import opened Wrappers

  /** The four values the bot ever writes into the `status` column. */
  datatype Status = Created | InProgress | Done | CancelledByUser

  /** The text stored for each status. */
  function StatusLabel(s: Status): string
  {
    match s
    case Created => "Создана"
    case InProgress => "Выполняется"
    case Done => "Выполнена"
    case CancelledByUser => "Аннулирована пользователем"
  }

  /** The labels are distinct, so the handlers' comparisons of the `status` column against
      them are comparisons of statuses, and the model may store a `Status` in its place. */
  lemma StatusLabelInjective(s: Status, u: Status)
    requires StatusLabel(s) == StatusLabel(u)
    ensures s == u
  {
  }

  /** Done and cancelled tickets accept no further transition. */
  predicate IsTerminal(s: Status)
  {
    s == Done || s == CancelledByUser
  }

  /** One row of the `tickets` table. `executorId` is NULL until someone takes the ticket. */
  datatype Ticket = Ticket(
    id: int,
    created: string,
    store: string,
    senderId: int,
    senderName: string,
    equipment: string,
    description: string,
    priority: string,
    status: Status,
    executorId: Option<int>,
    executorName: string,
    adminMsgId: int)

  type Store = map<int, Ticket>

  /** Python truthiness of `executor_id`: NULL and 0 both read as "no executor". */
  predicate HasExecutor(t: Ticket)
  {
    t.executorId.Some? && t.executorId.value != 0
  }

  /** What the transitions keep true of every row: no executor before the ticket is taken,
      an executor once it is being worked on or done. */
  predicate TicketInvariant(t: Ticket)
  {
    && (t.status == Created ==> t.executorId.None? && t.executorName == "")
    && (t.status == InProgress || t.status == Done ==> t.executorId.Some?)
  }

  ghost predicate WellFormed(store: Store)
  {
    forall id :: id in store ==> store[id].id == id && TicketInvariant(store[id])
  }

  /** The keyword arguments of one `update_ticket` call: the columns it sets, and nothing for the others. */
  datatype Patch = Patch(status: Option<Status>, executorId: Option<Option<int>>, executorName: Option<string>)
  {
    predicate IsEmpty()
    {
      status.None? && executorId.None? && executorName.None?
    }
  }

  /** The row after an update: the patched columns take their new values, every other column is kept. */
  function Apply(t: Ticket, p: Patch): (r: Ticket)
    ensures r.status == p.status.GetOr(t.status)
    ensures r.executorId == p.executorId.GetOr(t.executorId)
    ensures r.executorName == p.executorName.GetOr(t.executorName)
    ensures r.(status := t.status, executorId := t.executorId, executorName := t.executorName) == t
  {
    t.(status := p.status.GetOr(t.status),
       executorId := p.executorId.GetOr(t.executorId),
       executorName := p.executorName.GetOr(t.executorName))
  }

  /** `update_ticket`: `UPDATE tickets SET ... WHERE ticket_id = ?`; no columns means no statement at all. */
  function UpdateTicket(store: Store, id: int, p: Patch): (r: Store)
    ensures r.Keys == store.Keys
    ensures forall k :: k in store && k != id ==> r[k] == store[k]
    ensures id in store ==> r[id] == Apply(store[id], p)
    ensures p.IsEmpty() ==> r == store
  {
    if p.IsEmpty() || id !in store then store else store[id := Apply(store[id], p)]
  }

  /** Repeating an update changes nothing more: each column is set, not accumulated. */
  lemma UpdateIdempotent(store: Store, id: int, p: Patch)
    ensures UpdateTicket(UpdateTicket(store, id, p), id, p) == UpdateTicket(store, id, p)
  {
  }

  /** Updates that set disjoint columns may be applied in either order. */
  lemma UpdatesCommute(store: Store, id: int, p: Patch, q: Patch)
    requires p.status.None? || q.status.None?
    requires p.executorId.None? || q.executorId.None?
    requires p.executorName.None? || q.executorName.None?
    ensures UpdateTicket(UpdateTicket(store, id, p), id, q) == UpdateTicket(UpdateTicket(store, id, q), id, p)
  {
  }

  /** `m` is the largest ticket id in use. */
  ghost predicate IsMaxId(store: Store, m: int)
  {
    m in store && forall k :: k in store ==> k <= m
  }

  const FirstTicketId := 1001

  /** A set that is not empty has a member to pick. */
  lemma HasMember(s: set<int>)
    ensures (forall x :: x !in s) ==> s == {}
  {
    if forall x :: x !in s {
      assert s == {};
    }
  }

  /** `get_next_ticket_id`: `MAX(ticket_id) + 1`, or 1001 when the table is empty
      (or, as the code tests `row[0]` for truth, when the largest id is 0). */
  method NextTicketId(store: Store) returns (id: int)
    ensures id !in store
    ensures forall k :: k in store ==> k < id
    ensures store == map[] ==> id == FirstTicketId
    ensures forall m :: IsMaxId(store, m) ==> id == (if m == 0 then FirstTicketId else m + 1)
  {
    if store == map[] {
      return FirstTicketId;
    }
    HasMember(store.Keys);
    var max: int :| max in store;
    var rest := store.Keys - {max};
    while rest != {}
      invariant rest <= store.Keys
      invariant max in store
      invariant forall k :: k in store && k !in rest ==> k <= max
      decreases rest
    {
      HasMember(rest);
      var k: int :| k in rest;
      if k > max {
        max := k;
      }
      rest := rest - {k};
    }
    assert IsMaxId(store, max);
    id := if max == 0 then FirstTicketId else max + 1;
  }

  /** A row as `create_ticket_row` inserts it: status Created, no executor, empty executor name. */
  function NewTicket(
    id: int, created: string, store: string, senderId: int, senderName: string,
    equipment: string, description: string, priority: string, adminMsgId: int): (t: Ticket)
    ensures t.id == id && t.status == Created && t.executorId == None && t.executorName == ""
    ensures TicketInvariant(t)
  {
    Ticket(id, created, store, senderId, senderName, equipment, description, priority,
           Created, None, "", adminMsgId)
  }

  /** A row of the `senders` table. */
  datatype Profile = Profile(displayName: string, store: string, createdAt: string)

  /** A sender may open tickets once both the name and the store number are filled in. */
  predicate IsRegistered(p: Option<Profile>)
  {
    p.Some? && p.value.displayName != "" && p.value.store != ""
  }

  /** `set_sender_profile`: insert, or on conflict overwrite name and store but keep the registration time. */
  function SetSenderProfile(profiles: map<int, Profile>, user: int, name: string, store: string, now: string): (r: map<int, Profile>)
    ensures r.Keys == profiles.Keys + {user}
    ensures forall u :: u in profiles && u != user ==> r[u] == profiles[u]
    ensures r[user].displayName == name && r[user].store == store
    ensures r[user].createdAt == (if user in profiles then profiles[user].createdAt else now)
  {
    var createdAt := if user in profiles then profiles[user].createdAt else now;
    profiles[user := Profile(name, store, createdAt)]
  }

  /** `set_sender_name`: change only the name; the store stays (empty for a sender without a profile). */
  function SetSenderName(profiles: map<int, Profile>, user: int, name: string, now: string): (r: map<int, Profile>)
    ensures r.Keys == profiles.Keys + {user}
    ensures forall u :: u in profiles && u != user ==> r[u] == profiles[u]
    ensures r[user].displayName == name
    ensures user in profiles ==> r[user] == profiles[user].(displayName := name)
    ensures user !in profiles ==> r[user].store == ""
  {
    var store := if user in profiles then profiles[user].store else "";
    SetSenderProfile(profiles, user, name, store, now)
  }

  /** Renaming a registered sender keeps them registered: the store number survives the rename. */
  lemma RenameKeepsRegistration(profiles: map<int, Profile>, user: int, name: string, now: string)
    requires user in profiles && IsRegistered(Some(profiles[user])) && name != ""
    ensures var r := SetSenderName(profiles, user, name, now);
      IsRegistered(Some(r[user])) && r[user].store == profiles[user].store && r[user].createdAt == profiles[user].createdAt
  {
  }

  /** `set_technician_name`: upsert one display name. */
  function SetTechnicianName(names: map<int, string>, user: int, name: string): (r: map<int, string>)
    ensures r.Keys == names.Keys + {user} && r[user] == name
    ensures forall u :: u in names && u != user ==> r[u] == names[u]
  {
    names[user := name]
  }

  /** `get_technician_name`: the stored display name when there is a non-empty one, otherwise
      the name the platform shows for the user (`platformName`, computed outside the model). */
  function TechnicianName(names: map<int, string>, user: int, platformName: string): (r: string)
    ensures user in names && names[user] != "" ==> r == names[user]
    ensures !(user in names && names[user] != "") ==> r == platformName
  {
    if user in names && names[user] != "" then names[user] else platformName
  }

  /** After a name is set for a technician, it is the name their tickets show. */
  lemma NameSetIsUsed(names: map<int, string>, user: int, name: string, platformName: string)
    requires name != ""
    ensures TechnicianName(SetTechnicianName(names, user, name), user, platformName) == name
  {
  }
}

=== FILE: wrappers.dfy ===
/** Optional values: Python's `None` versus a present value. */
module Wrappers {

  datatype Option<+T> = None | Some(value: T) {

    /** Returns the value, or `default` when there is none. */
    function GetOr(default: T): T
    {
      match this
      case Some(v) => v
      case None => default
    }
  }
}
